=== FILE: README.md ===
# Chat front end of a semantic code-search service, in Dafny

The system is a web chat front end. A user either registers a source file
from a GitHub repository for semantic search, or asks a question about the
files registered so far. The model covers three parts of it:

- `lib/utils.ts`:
  - the GitHub blob-link parser `parseGithubUrl`;
  - the link detector `isGithubUrl`;
  - `formatError`;
  - `getApiUrl`.
- The chat endpoint `POST /api/chat` (`app/api/chat/route.ts`), in two halves:
  - a classifier: request history → plan. The plan is one of: reject with an
    HTTP status, show help, unknown command, call the ingest endpoint, call
    the semantic-search endpoint. It also fixes the request body the call is
    sent with.
  - a normaliser: plan plus the backend's outcome → the assistant reply.
- `formatMessage` (`components/chat-interface.tsx`), which turns an assistant
  message into the HTML the chat window shows.

Files:

- `wrappers.dfy`: the `Option` type.
- `text.dfy`: JavaScript's string built-ins as the code uses them:
  - the line terminators a regular expression's `.` refuses;
  - the white space `trim` strips;
  - `split` on one character and `join`;
  - `slice(0, n)` on arrays;
  - the decimal text a template literal gives for an integer.
- `utils.dfy`: the two regular expressions of `lib/utils.ts`, modelled as
  deterministic scanners, plus `formatError` and `getApiUrl`:
  - the anchored pattern is `SplitBlobUrl` (greedy runs become `Span`);
  - the unanchored one is `FindMatch`/`IsGithubUrl`;
  - `FirstMatch` is the text that `String.prototype.match` returns for the
    same pattern in the handler.
- `markdown.dfy`: `formatMessage`. The global lazy replacement `D(.+?)D` is
  written two ways and the two are proved equal:
  - a scanner `Tokenize`;
  - a declarative description of the pattern's cutting, `Lexes`.
- `route.dfy`: the handler.
  - `Classify` decides; `Post` puts the decision, the backend call and the
    reply together.
  - The network, the environment, `isSlashCommand` and `parseIngestCommand`
    are function parameters:
    - `isSlashCommand` and `parseIngestCommand` are imported by the handler
      but not defined in `lib/utils.ts`;
    - a backend is a function from the request it receives to an `Outcome`:
      thrown, a status that is not OK with its body, or OK with the decoded
      data.

Behaviour of the code worth knowing:

- A bare link in a message takes the rest of its line into the file path.
  "see https://github.com/o/r/blob/main/x.cpp for details" is registered with
  the path "x.cpp for details" (`Route.LinkInSentenceExample`).
- The `success` field of a response is not read, for ingestion or for search:
  an OK status with `success: false` still gives the success message or the
  answer (`Route.IngestSuccessReadsFourFields`, `Route.SearchReplyIgnoresSuccess`).
- An error body that is not JSON yields the message "Unknown error"; the HTTP
  status is shown only for a JSON body without a truthy `detail`
  (`Route.FailureMessageCases`).
- The repository address is always `https://github.com/<owner>/<repo>`,
  whatever the scheme of the link (`Utils.ParseIgnoresSchemeAndRef`).
- The owner segment does not admit `.` (`Utils.ParseRejectsDottedOwner`).
- Only the host `github.com` is accepted.

## Model

| member | source | states |
|---|---|---|
| Text.Trim | app/api/chat/route.ts:58 | `trim` yields a middle part of the text whose surroundings are white space, and which neither starts nor ends with white space |
| Text.TrimPadded | app/api/chat/route.ts:58 | trimming a word without white space at its ends, padded with any white space, gives back the word |
| Text.Split | components/chat-interface.tsx:80-81 | `split('\n')` gives at least one piece, no piece holds a newline, and joining the pieces with a newline gives back the text |
| Text.SplitJoin | components/chat-interface.tsx:80-81 | splitting on `c` undoes joining with `c` when no piece holds `c` |
| Text.JoinOmits | components/chat-interface.tsx:93 | a character absent from a joined text is absent from every piece |
| Text.NatToStringRoundTrip | app/api/chat/route.ts:144 | the decimal numeral of a natural number reads back as that number |
| Text.IntToString | app/api/chat/route.ts:154 | the text of an integer is its decimal numeral without leading zeros, with a leading `-` when negative |
| Text.Take | app/api/chat/route.ts:274 | `slice(0, 3)` keeps the first `min(3, n)` elements in order |
| Text.Join | components/chat-interface.tsx:93 | computes `join(sep)`, also used for the sources at app/api/chat/route.ts:274: the pieces in order with `sep` between neighbours. It has no contract of its own; `Text.SplitJoin` proves `split` undoes it and `Text.JoinOmits` proves a character missing from the result is missing from every piece |
| Utils.Span | lib/utils.ts:19 | a greedy character-class run takes every leading character of the class and stops at the first one outside it |
| Utils.ScanHead | lib/utils.ts:19 | a scanned link head has a well-formed owner, repository and ref, and composing its parts gives back the text |
| Utils.ScanHeadComplete | lib/utils.ts:19 | every link text with a well-formed head is scanned back into exactly its parts |
| Utils.SplitBlobUrl | lib/utils.ts:19-24 | the anchored pattern accepts only whole valid links (non-empty single-line path), and the parts compose back to the input |
| Utils.SplitBlobUrlComplete | lib/utils.ts:19-24 | the anchored pattern accepts every valid link and recovers its parts |
| Utils.ParseGithubUrl | lib/utils.ts:16-36 | a non-null result comes from a valid link equal to the input; its repository address starts with `https://github.com/`; its file path is non-empty and on one line |
| Utils.ParseGithubUrlRoundTrip | lib/utils.ts:26-31 | parsing a composed valid link gives the https address of its owner and repository and its path unchanged |
| Utils.ParseIgnoresSchemeAndRef | lib/utils.ts:26-31 | the result does not depend on `http` versus `https` or on the ref |
| Utils.ParsedLinkStartsWithHost | lib/utils.ts:19 | the pattern is anchored at the start: every accepted text starts with `http://github.com/` or `https://github.com/` |
| Utils.ParseRejectsDottedOwner | lib/utils.ts:19 | an owner containing `.` is refused |
| Utils.ParsedLinkHasBlobSegment | lib/utils.ts:19 | every accepted text has `/blob/` right after its repository segment |
| Utils.ParseRejectsEmptyPath | lib/utils.ts:19-24 | a link ending right after the ref's `/` is refused |
| Utils.ParseRejectsTrailingLine | lib/utils.ts:19-24 | the pattern is anchored at the end and `.` stops at line terminators: a link followed by text holding a line terminator is refused |
| Utils.ParseRejectsBadPath | lib/utils.ts:19-24 | a link whose path crosses a line is refused |
| Utils.MatchStartsWithH | lib/utils.ts:42 | the unanchored pattern can only match where the text has the `h` of `http` |
| Utils.FindMatch | lib/utils.ts:42-43 | the search returns the leftmost index at or after `from` where the pattern matches, and none exists when it returns nothing |
| Utils.IsGithubUrl | lib/utils.ts:41-44 | `isGithubUrl` holds exactly when the pattern matches at some index |
| Utils.IsGithubUrlInContext | lib/utils.ts:41-44 | any text containing a valid link on its line, with any prefix and any suffix, is detected |
| Utils.LinkAt | app/api/chat/route.ts:179 | the text matched at an index exists exactly when the pattern matches there, is a prefix of the rest of the text, and parses |
| Utils.FirstMatch | app/api/chat/route.ts:179-195 | `match(...)?.[0]` is defined exactly when `isGithubUrl` holds, and then it parses; so both 400 replies of the link branch are unreachable |
| Utils.FirstMatchTakesRestOfLine | app/api/chat/route.ts:179 | with no earlier match, the matched text is the link plus the rest of its line, and parsing it keeps that whole rest in the file path |
| Utils.LeftmostMatch | app/api/chat/route.ts:179 | when nothing matches before index k and something matches at k, the search finds k |
| Utils.FormatError | lib/utils.ts:56-64 | an `Error` shows its message, a thrown string shows itself, anything else shows "An unexpected error occurred" |
| Utils.GetApiUrl | lib/utils.ts:49-51 | the API address is never empty: a non-empty configured value is used verbatim, otherwise `http://localhost:5001` |
| Markdown.TerminatorBlocks | components/chat-interface.tsx:84 | the inner text of `(.+?)` cannot run past a line terminator |
| Markdown.CloseFrom | components/chat-interface.tsx:84 | the lazy search finds the shortest single-line inner text followed by the delimiter, and finds nothing only if none exists |
| Markdown.MatchEnd | components/chat-interface.tsx:84 | where the lazy pattern matches at the start of a text, the inner text ends at the shortest closing delimiter; otherwise no match starts there |
| Markdown.Tokenize | components/chat-interface.tsx:84 | the scan of a line cuts it into pieces that, with the delimiters put back, give the line |
| Markdown.TokenizeLexes | components/chat-interface.tsx:84 | every piece of the scan is the leftmost lazy match at its position, or one character where no match starts |
| Markdown.LexesUnique | components/chat-interface.tsx:84 | there is only one cutting of a line that has that property |
| Markdown.ReplaceRendersLexes | components/chat-interface.tsx:84 | the global replacement is the rendering of that one cutting |
| Markdown.ReplaceWithoutDelimiter | components/chat-interface.tsx:90 | a line in which the delimiter never occurs is not changed by the replacement |
| Markdown.BoldKeepsFence | components/chat-interface.tsx:84-87 | the bolded line starts with three backticks exactly when the original line does, and is then those backticks followed by the bolded rest |
| Markdown.CodeBlockLine | components/chat-interface.tsx:86-88 | a line starting with three backticks becomes a `pre` block holding the bolded rest of the line, without inline-code rewriting |
| Markdown.OrdinaryLine | components/chat-interface.tsx:89-91 | any other line is bolded and then has its inline code rewritten |
| Markdown.PlainLineUnchanged | components/chat-interface.tsx:83-91 | a line with no `**` and no backtick is output unchanged |
| Markdown.FormatMessageLines | components/chat-interface.tsx:78-95 | lines are kept in number and order: a message of lines joined by newlines becomes the rewritten lines joined by `<br/>` |
| Markdown.PlainMessage | components/chat-interface.tsx:78-95 | a message with no `*` and no backtick only has its newlines turned into `<br/>` |
| Markdown.Bold | components/chat-interface.tsx:84 | computes the global replacement of `**(.+?)**` by `<strong>$1</strong>`; `Markdown.ReplaceRendersLexes` proves it is the rendering of the one leftmost-lazy cutting, and `Markdown.BoldKeepsFence` that it keeps a leading fence |
| Markdown.InlineCode | components/chat-interface.tsx:90 | computes the global replacement of `` `(.+?)` `` by the `code` element; `Markdown.ReplaceRendersLexes` and `Markdown.ReplaceWithoutDelimiter` state its properties |
| Markdown.FormatLine | components/chat-interface.tsx:83-92 | computes the per-line rewrite: bold first, then a `pre` block for a fenced line or the inline-code rewrite otherwise; `Markdown.CodeBlockLine`, `Markdown.OrdinaryLine` and `Markdown.PlainLineUnchanged` state it |
| Markdown.FormatMessage | components/chat-interface.tsx:78-95 | computes `formatMessage`: `FormatLine` of every piece of `split('\n')`, joined with `<br/>`; `Markdown.FormatMessageLines` and `Markdown.PlainMessage` state it |
| Route.ClassifyText | app/api/chat/route.ts:56-236 | the branch for the last message's text: help exactly for a slash command trimming to `/help`; otherwise a command ingestion of what `parseIngestCommand` returns, or the unknown-command reply when it returns null; a link ingestion exactly when a non-command is a link; otherwise a search; never a rejection |
| Route.Classify | app/api/chat/route.ts:38-56 | the handler rejects exactly an unreadable body (500 with `formatError`) and a missing or empty history (400, "No messages provided") |
| Route.Post | app/api/chat/route.ts:38-296 | the response is an error response exactly for an unreadable body or an empty history, with status 500 or 400 and those texts |
| Route.ClassifyAsking | app/api/chat/route.ts:50-51 | a request with history is decided on the text of its last message |
| Route.ClassifyReadsLastMessage | app/api/chat/route.ts:50-51 | two histories ending in the same message are decided alike |
| Route.OnlyLastMessageMatters | app/api/chat/route.ts:50-51 | two histories ending in the same message get the same response |
| Route.ClassifyPaddedHelp | app/api/chat/route.ts:58 | `/help` surrounded by white space is recognised as `/help` |
| Route.HelpIgnoresPadding | app/api/chat/route.ts:58-122 | `/help` surrounded by white space is answered with the help text |
| Route.SlashCommandNeverSearches | app/api/chat/route.ts:56-174 | a slash command never reaches the search backend; when not parsed as an ingestion it reaches no backend; any ingestion it causes is a command ingestion |
| Route.CommandIngestsParsedFile | app/api/chat/route.ts:126-140 | a parsed `/ingest` command sends the parsed `repo_url` and `file_path` to `<api>/api/ingest/file` |
| Route.ClassifyFoundLink | app/api/chat/route.ts:177-208 | a non-command whose first match parses is ingested with the parse result |
| Route.ClassifyLink | app/api/chat/route.ts:177-208 | a non-command holding a valid link with no earlier match is ingested with the link's repository and its path plus the rest of its line |
| Route.LinkIngestsRestOfLine | app/api/chat/route.ts:177-234 | such a message is answered with the outcome of that ingestion |
| Route.LinkCallWholeLine | app/api/chat/route.ts:179 | on a one-line message the rest of the line is everything after the link |
| Route.QuestionIsSearched | app/api/chat/route.ts:236-249 | any other message is sent verbatim as the query, with limit 5, threshold 0.7 and synthesis on, to `<api>/api/semantic_search` |
| Route.NotOkMessage | app/api/chat/route.ts:142-145 | the error for a status that is not OK is never empty: the body's `detail` if truthy, otherwise `HTTP <status>`; "Unknown error" for a body that is not JSON |
| Route.FailureOf | app/api/chat/route.ts:142-144 | the value the `catch` receives: a thrown value unchanged; for a status that is not OK an `Error` whose message, as `formatError` shows it, is the text `Route.NotOkMessage` gives |
| Route.IngestSuccess | app/api/chat/route.ts:150-154 | computes the ingestion success message from the response fields; `Route.IngestSuccessReadsFourFields` states which fields it reads |
| Route.IngestReply | app/api/chat/route.ts:142-166 | computes the ingestion reply for either origin (the link branch repeats it at app/api/chat/route.ts:210-234): the success message on an OK outcome, the error lead, formatted error and advice otherwise; `Route.IngestReplyTellsOutcome` and `Route.IngestFailureReadsBack` state it |
| Route.Answer | app/api/chat/route.ts:261-265 | computes the first part of a search reply; `Route.SearchReplyStartsWithAnswer` and `Route.NoAnswerExample` state it |
| Route.Footer | app/api/chat/route.ts:267-275 | computes the metadata after the answer: the rule, the strategy, the reasoning when truthy, at most three sources; `Route.AnswerThenRule` states the rule, `Route.BareSearchReply` the strategy line, `Route.FalsyReasoningAddsNoLine` the reasoning condition, and `Route.AbsentSourcesLikeEmpty` with `Route.OnlyThreeSources` the sources line |
| Route.SearchReply | app/api/chat/route.ts:251-287 | computes the search reply: answer then footer on an OK outcome, the error lead, formatted error and advice otherwise; `Route.SearchReplyStartsWithAnswer`, `Route.SearchReplyReadsFiveFields`, `Route.SearchReplyIgnoresSuccess`, `Route.SearchFailureReadsBack` and `Route.SearchErrorExample` state it |
| Route.FailureMessageCases | app/api/chat/route.ts:142-144 | for either backend (the same throw recurs at app/api/chat/route.ts:210-213 and 251-254): a truthy detail is shown whatever the status; a non-JSON body shows "Unknown error" whatever the status; an empty detail shows the status |
| Route.Unwrap | app/api/chat/route.ts:164 | a recovered error text, put back between the lead and the advice, gives the reply |
| Route.UnwrapWrap | app/api/chat/route.ts:164 | the error text is recovered from any reply built around it |
| Route.IngestFailureReadsBack | app/api/chat/route.ts:160-166 | a failed ingestion's reply is the ingest-error lead, the formatted error, then the advice for the origin, and the formatted error can be read back from it |
| Route.SearchFailureReadsBack | app/api/chat/route.ts:281-287 | a failed search's reply is the search-error lead, the formatted error, then the advice, and the formatted error can be read back from it |
| Route.IngestReplyTellsOutcome | app/api/chat/route.ts:150-165 | an ingestion reply starts with a check mark exactly when the backend answered OK |
| Route.IngestSuccessReadsFourFields | app/api/chat/route.ts:218-222 | the success message reads only the repository, file, summary and dimension fields: it is the same for command and link, and ignores `success` |
| Route.SearchReplyStartsWithAnswer | app/api/chat/route.ts:259-265 | a search reply begins with the synthesized answer when that is truthy, and with the fallback line otherwise |
| Route.AnswerThenRule | app/api/chat/route.ts:259-268 | the answer is followed directly by the rule `\n\n---\n\n` |
| Route.OnlyThreeSources | app/api/chat/route.ts:273-275 | with three or more synthesis sources, sources after the third never change the reply |
| Route.SearchReplyReadsFiveFields | app/api/chat/route.ts:256-275 | an OK search reply depends only on the match count, the strategy, the reasoning, the synthesized answer and the sources; two bodies agreeing on these get the same reply |
| Route.SearchReplyIgnoresSuccess | app/api/chat/route.ts:251-256 | the body's `success` field never changes the reply: only the HTTP status decides between answer and error |
| Route.FalsyReasoningAddsNoLine | app/api/chat/route.ts:270-272 | an empty reasoning gives the same reply as an absent one: no Reasoning line |
| Route.AbsentSourcesLikeEmpty | app/api/chat/route.ts:273-275 | absent sources and an empty list of sources give the same reply: no Sources line |
| Route.BareSearchReply | app/api/chat/route.ts:259-275 | with no truthy reasoning and no sources, the reply is the answer, the rule `\n\n---\n\n` and the line `**Search Strategy:** <source>` with its newline, and nothing else |
| Route.SearchErrorExample | app/api/chat/route.ts:251-287 | status 500 with detail "boom" gives the search-error lead, "boom", then the advice |
| Route.NoAnswerExample | app/api/chat/route.ts:263-265 | no synthesized answer and three matches gives "Found 3 matches, but no synthesized answer was generated." |
| Route.ClassifySentenceExample | app/api/chat/route.ts:179-208 | "see <link> for details" is ingested as repository `https://github.com/o/r` with the path "x.cpp for details" |
| Route.LinkInSentenceExample | app/api/chat/route.ts:177-234 | the same message is answered with the outcome of that ingestion |

## Left out

- `cn` (lib/utils.ts:7-9) merges CSS class names through two foreign libraries; it plays no part in the chat logic.
- The `try`/`catch` inside `parseGithubUrl` (lib/utils.ts:32-35) is not modelled: matching a string against a regular expression does not throw. The `console.error` calls are not modelled either.
- `isSlashCommand` and `parseIngestCommand` are not part of this model: `lib/utils.ts` does not define them. They are parameters of `Classify` and `Post`, and nothing is assumed about them. An exception they throw would reach the handler's outer `catch` and give a 500; that path is not modelled.
- The network (`fetch`, request headers), `NextRequest`/`NextResponse`, the edge runtime, `process.env` and logging are left out. The environment value and the two backends are parameters. A body that cannot be read as JSON is the `Unreadable` request, or an `Outcome` of `Failed`.
- Route.NotOkMessage: a `detail` that is a JSON value other than a string (a number, an object) is not modelled; it would be shown as JavaScript prints it.
- Route.NotOkMessage: an error body that is the JSON literal `null` is not modelled; reading `detail` from it throws inside the inner `try`, so it shows up only as a `Failed` outcome.
- A `messages` value that is not an array, and a last message whose `content` is not a string, are not modelled; what happens to them depends on `isSlashCommand`. With one that returns false, `content: 42` is sent to the search endpoint as the query `42` without any exception.
- Route.IngestSuccess: `embedding_dimensions` is an integer here. A non-integer number would be printed in JavaScript's own number format.
- Route.Answer: `total_matches` is an integer here, for the same reason.
- Text.IntToString: JavaScript printing of values is modelled only for integers of moderate size. `${n}` prints integers of 10^21 and above in exponent form, and integers above 2^53 are already rounded (app/api/chat/route.ts:154, 264). Neither is modelled.
- Missing fields of an OK body are not modelled: every field is present in the model, while JavaScript prints a missing one as "undefined" (app/api/chat/route.ts:150-154, 269).
- Route.Footer: `synthesis_sources` entries are strings here. A `null` entry would be joined as the empty text (app/api/chat/route.ts:274).
- The `matches` array of the search response is not modelled: the handler never reads it.
- Strings are sequences of Unicode scalar values, not UTF-16 code units. Matching and trimming are unaffected: every character the code tests for is in the Basic Multilingual Plane (line terminators, white space, `\w`, `-`, `.`, `/`, `*`, the backtick), and `.` accepts both halves of a surrogate pair just as it accepts the one scalar value they encode.
- The React component around `formatMessage` is left out: state, sending a message, scrolling, rendering the HTML. So are `app/page.tsx` and `app/layout.tsx`.

=== FILE: markdown.dfy ===
/** `formatMessage` of `components/chat-interface.tsx`: the markdown-lite
    renderer for assistant replies. The text is split on `\n`; each line has
    every `**X**` turned into `<strong>X</strong>`, then either becomes a code
    block (when it starts with three backticks) or has every `` `X` `` turned
    into an inline `<code>` element; the lines are joined with `<br/>`.

    Both rewrites are JavaScript global replacements of a pattern
    `D(.+?)D`: scanning left to right, a match starts at the leftmost place
    where it can, its inner text is the shortest non-empty run of non
    line-terminator characters followed by the delimiter `D`, and scanning
    resumes after the closing delimiter. A line is therefore cut into
    pieces — single characters copied unchanged and delimited runs — and
    that cutting is modelled explicitly as a list of `Piece`s. */
module Markdown {
  import opened Wrappers
  import opened Text

  /** A piece of a line: a character no match starts at, or the inner text of
      a delimited run. */
  datatype Piece = Plain(c: char) | Marked(inner: string)

  /** `t`, opened by delimiter `d`, has a closing `d` right after the inner
      text `t[|d|..e]`, which is non-empty and stays on one line. */
  ghost predicate ClosesAt(t: string, d: string, e: int) {
    |d| < e && e + |d| <= |t| && t[e..e + |d|] == d && NoLineTerminator(t[|d|..e])
  }

  /** The lazy `D(.+?)D` matches at the start of `t` with inner text ending at `e`. */
  ghost predicate LazyMatch(t: string, d: string, e: int) {
    StartsWith(t, d) && ClosesAt(t, d, e) && forall e' :: |d| < e' < e ==> !ClosesAt(t, d, e')
  }

  /** The pattern has no match starting at the start of `t`. */
  ghost predicate NoMatch(t: string, d: string) {
    !StartsWith(t, d) || forall e :: !ClosesAt(t, d, e)
  }

  /** A line terminator at `e - 1` stops every longer inner text. */
  lemma TerminatorBlocks(t: string, d: string, e: nat)
    requires |d| < e <= |t| && IsLineTerminator(t[e - 1])
    ensures forall e' :: e <= e' ==> !ClosesAt(t, d, e')
  {
    forall e' | e <= e' && e' + |d| <= |t|
      ensures !NoLineTerminator(t[|d|..e'])
    {
      assert t[|d|..e'][e - 1 - |d|] == t[e - 1];
    }
  }

  /** The lazy search for the closing delimiter, trying inner texts that end at
      `e`, `e + 1`, … in turn. */
  function CloseFrom(t: string, d: string, e: nat): (r: Option<nat>)
    requires 0 < |d| < e && e - 1 <= |t|
    requires StartsWith(t, d)
    requires NoLineTerminator(t[|d|..e - 1])
    requires forall e' :: |d| < e' < e ==> !ClosesAt(t, d, e')
    ensures r.Some? ==> LazyMatch(t, d, r.value)
    ensures r.None? ==> forall e' :: !ClosesAt(t, d, e')
    decreases |t| + 1 - e
  {
    if e > |t| then None
    else if IsLineTerminator(t[e - 1]) then
      TerminatorBlocks(t, d, e);
      None
    else
      assert t[|d|..e] == t[|d|..e - 1] + [t[e - 1]];
      if StartsWith(t[e..], d) then
        assert t[e..e + |d|] == t[e..][..|d|];
        Some(e)
      else
        assert !ClosesAt(t, d, e) by {
          if e + |d| <= |t| {
            assert t[e..e + |d|] == t[e..][..|d|];
          }
        }
        CloseFrom(t, d, e + 1)
  }

  /** Where the match of `D(.+?)D` at the start of `t` ends its inner text, if
      there is a match there. */
  function MatchEnd(t: string, d: string): (r: Option<nat>)
    requires |d| > 0
    ensures r.Some? ==> LazyMatch(t, d, r.value)
    ensures r.None? ==> NoMatch(t, d)
  {
    if StartsWith(t, d) then CloseFrom(t, d, |d| + 1) else None
  }

  /** The text a list of pieces stands for, with `open` and `close` around
      each delimited run. */
  function Render(ps: seq<Piece>, open: string, close: string): string
    decreases |ps|
  {
    if ps == [] then []
    else
      var head := match ps[0]
        case Plain(c) => [c]
        case Marked(x) => open + x + close;
      head + Render(ps[1..], open, close)
  }

  /** How much of the line a piece covers. */
  function Width(p: Piece, d: string): nat {
    if p.Plain? then 1 else |d| + |p.inner| + |d|
  }

  /** `p` is what the global, lazy pattern `D(.+?)D` takes at the start of
      `s`: the match there, or a single character where no match starts. */
  ghost predicate FirstPiece(s: string, p: Piece, d: string) {
    match p
    case Plain(c) => |s| > 0 && s[0] == c && NoMatch(s, d)
    case Marked(x) => LazyMatch(s, d, |d| + |x|) && s[|d|..|d| + |x|] == x
  }

  /** `ps` is the left-to-right cutting of `s` by the global, lazy pattern
      `D(.+?)D`. */
  ghost predicate Lexes(s: string, ps: seq<Piece>, d: string)
    decreases |ps|
  {
    if ps == [] then s == []
    else FirstPiece(s, ps[0], d) && Width(ps[0], d) <= |s| && Lexes(s[Width(ps[0], d)..], ps[1..], d)
  }

  /** The scan `String.prototype.replace` performs with a global pattern
      `D(.+?)D`. Putting the delimiters back gives the line it was cut from;
      `TokenizeLexes` shows the cutting is the pattern's. */
  function Tokenize(s: string, d: string): (ps: seq<Piece>)
    requires |d| > 0
    ensures Render(ps, d, d) == s
    decreases |s|
  {
    if s == [] then []
    else
      match MatchEnd(s, d)
      case Some(e) =>
        var x := s[|d|..e];
        var rest := Tokenize(s[e + |d|..], d);
        RenderCons(Marked(x), rest, d, d);
        MatchSplits(s, d, e);
        [Marked(x)] + rest
      case None =>
        var rest := Tokenize(s[1..], d);
        RenderCons(Plain(s[0]), rest, d, d);
        assert s == [s[0]] + s[1..];
        [Plain(s[0])] + rest
  }

  /** A match is the delimiter, the inner text, the delimiter, and what follows. */
  lemma MatchSplits(s: string, d: string, e: int)
    requires LazyMatch(s, d, e)
    ensures s == d + s[|d|..e] + d + s[e + |d|..]
  {
    assert s[..|d|] == d && s[e..e + |d|] == d;
    assert s == s[..|d|] + s[|d|..e] + s[e..e + |d|] + s[e + |d|..];
  }

  /** One step of the scan where no match starts: a single character. */
  lemma TokenizePlain(s: string, d: string)
    requires |d| > 0 && |s| > 0 && MatchEnd(s, d).None?
    ensures Tokenize(s, d) == [Plain(s[0])] + Tokenize(s[1..], d)
  {
  }

  /** One step of the scan where a match starts: the match, then the scan of
      what follows it. */
  lemma TokenizeMarked(s: string, d: string, e: nat)
    requires |d| > 0 && |s| > 0 && MatchEnd(s, d) == Some(e)
    ensures Tokenize(s, d) == [Marked(s[|d|..e])] + Tokenize(s[e + |d|..], d)
  {
  }

  /** Each piece `Tokenize` produces is the leftmost lazy match at its
      position, or a single character where none starts. */
  lemma {:induction false} TokenizeLexes(s: string, d: string)
    requires |d| > 0
    ensures Lexes(s, Tokenize(s, d), d)
    decreases |s|
  {
    if s != [] {
      match MatchEnd(s, d)
      case None =>
        TokenizePlain(s, d);
        TokenizeLexes(s[1..], d);
        assert FirstPiece(s, Plain(s[0]), d);
        LexesCons(s, Plain(s[0]), Tokenize(s[1..], d), d);
      case Some(e) =>
        TokenizeMarked(s, d, e);
        TokenizeLexes(s[e + |d|..], d);
        FirstPieceOfMatch(s, d, e);
        LexesCons(s, Marked(s[|d|..e]), Tokenize(s[e + |d|..], d), d);
    }
  }

  /** The match the scanner finds is a first piece covering both delimiters. */
  lemma FirstPieceOfMatch(s: string, d: string, e: int)
    requires LazyMatch(s, d, e)
    ensures FirstPiece(s, Marked(s[|d|..e]), d) && Width(Marked(s[|d|..e]), d) == e + |d|
  {
    assert |d| + |s[|d|..e]| == e;
  }

  /** A first piece followed by a cutting of what it leaves is a cutting. */
  lemma LexesCons(s: string, p: Piece, rest: seq<Piece>, d: string)
    requires FirstPiece(s, p, d) && Width(p, d) <= |s| && Lexes(s[Width(p, d)..], rest, d)
    ensures Lexes(s, [p] + rest, d)
  {
    assert ([p] + rest)[1..] == rest;
  }

  /** Two lazy matches at the same place end at the same place. */
  lemma LazyMatchUnique(t: string, d: string, e1: int, e2: int)
    requires LazyMatch(t, d, e1) && LazyMatch(t, d, e2)
    ensures e1 == e2
  {
  }

  /** Only one piece can come first. */
  lemma FirstPieceUnique(s: string, p: Piece, q: Piece, d: string)
    requires |d| > 0
    requires FirstPiece(s, p, d) && FirstPiece(s, q, d)
    ensures p == q
  {
    if p.Marked? && q.Marked? {
      LazyMatchUnique(s, d, |d| + |p.inner|, |d| + |q.inner|);
    }
  }

  /** There is only one way to cut a line: the cutting `Tokenize` computes is
      the one the pattern's semantics defines. */
  lemma {:induction false} LexesUnique(s: string, ps: seq<Piece>, qs: seq<Piece>, d: string)
    requires |d| > 0
    requires Lexes(s, ps, d) && Lexes(s, qs, d)
    ensures ps == qs
    decreases |ps|
  {
    if ps != [] && qs != [] {
      FirstPieceUnique(s, ps[0], qs[0], d);
      LexesUnique(s[Width(ps[0], d)..], ps[1..], qs[1..], d);
      assert ps == [ps[0]] + ps[1..] && qs == [qs[0]] + qs[1..];
    }
  }

  /** The global replacement of the lazy pattern `D(.+?)D` by `open`, the
      inner text, and `close`. */
  function Replace(s: string, d: string, open: string, close: string): string
    requires |d| > 0
  {
    Render(Tokenize(s, d), open, close)
  }

  /** The replacement is the rendering of the pattern's own cutting of the
      line, whatever procedure found it. */
  lemma ReplaceRendersLexes(s: string, d: string, ps: seq<Piece>, open: string, close: string)
    requires |d| > 0 && Lexes(s, ps, d)
    ensures Replace(s, d, open, close) == Render(ps, open, close)
  {
    TokenizeLexes(s, d);
    LexesUnique(s, Tokenize(s, d), ps, d);
  }

  /** A line in which the delimiter never occurs is left unchanged. */
  lemma {:induction false} ReplaceWithoutDelimiter(s: string, d: string, open: string, close: string)
    requires |d| > 0
    requires forall i :: !OccursAt(s, d, i)
    ensures Replace(s, d, open, close) == s
    decreases |s|
  {
    if s != [] {
      assert !OccursAt(s, d, 0);
      assert !StartsWith(s, d);
      forall i ensures OccursAt(s[1..], d, i) == OccursAt(s, d, i + 1) {
        if 0 <= i && i + |d| <= |s| - 1 {
          assert s[1..][i..i + |d|] == s[i + 1..i + 1 + |d|];
        }
      }
      ReplaceWithoutDelimiter(s[1..], d, open, close);
      var ps := Tokenize(s, d);
      assert ps == [Plain(s[0])] + Tokenize(s[1..], d);
      assert ps[1..] == Tokenize(s[1..], d);
      assert s == [s[0]] + s[1..];
    }
  }

  /** Rendering a list of pieces renders its first piece, then the rest. */
  lemma RenderCons(p: Piece, rest: seq<Piece>, open: string, close: string)
    ensures Render([p] + rest, open, close)
         == (if p.Plain? then [p.c] else open + p.inner + close) + Render(rest, open, close)
  {
    assert ([p] + rest)[1..] == rest;
  }

  /** Where no match starts, the first character is passed through. */
  lemma ReplaceHeadPlain(s: string, d: string, open: string, close: string)
    requires |d| > 0 && |s| > 0 && MatchEnd(s, d).None?
    ensures Replace(s, d, open, close) == [s[0]] + Replace(s[1..], d, open, close)
  {
    TokenizePlain(s, d);
    RenderCons(Plain(s[0]), Tokenize(s[1..], d), open, close);
  }

  /** Rendering a delimited run first puts `open` in front. */
  lemma RenderMarked(x: string, rest: seq<Piece>, open: string, close: string)
    ensures Render([Marked(x)] + rest, open, close) == open + (x + close + Render(rest, open, close))
  {
    var ps := [Marked(x)] + rest;
    assert ps[0] == Marked(x) && ps[1..] == rest;
    assert open + x + close + Render(rest, open, close) == open + (x + close + Render(rest, open, close));
  }

  /** Where a match starts, the replacement starts with `open`. */
  lemma ReplaceHeadMarked(s: string, d: string, open: string, close: string)
    requires |d| > 0 && |s| > 0 && MatchEnd(s, d).Some?
    ensures StartsWith(Replace(s, d, open, close), open)
  {
    var e := MatchEnd(s, d).value;
    TokenizeMarked(s, d, e);
    var x := s[|d|..e];
    var rest := Tokenize(s[e + |d|..], d);
    RenderMarked(x, rest, open, close);
    PrefixOfConcat(open, x + close + Render(rest, open, close));
  }

  /** The first character of a replaced line is the line's own first character
      or the start of `open`; in the first case the rest is the replacement of
      the rest. */
  lemma ReplaceHead(s: string, d: string, open: string, close: string)
    requires |d| > 0 && |s| > 0
    ensures || (MatchEnd(s, d).None? && Replace(s, d, open, close) == [s[0]] + Replace(s[1..], d, open, close))
            || (MatchEnd(s, d).Some? && StartsWith(Replace(s, d, open, close), open))
  {
    if MatchEnd(s, d).None? {
      ReplaceHeadPlain(s, d, open, close);
    } else {
      ReplaceHeadMarked(s, d, open, close);
    }
  }

  const StrongOpen: string := "<strong>"
  const StrongClose: string := "</strong>"
  const PreOpen: string := "<pre class=\"bg-slate-900 text-gray-100 p-3 rounded my-2 overflow-x-auto border border-slate-700/50\"><code>"
  const PreClose: string := "</code></pre>"
  const CodeOpen: string := "<code class=\"bg-slate-900 text-blue-300 px-1.5 py-0.5 rounded border border-slate-700/50\">"
  const CodeClose: string := "</code>"
  const Fence: string := "```"

  /** The bold rewrite: every lazy `**X**` becomes `<strong>X</strong>`. */
  function Bold(line: string): string {
    Replace(line, "**", StrongOpen, StrongClose)
  }

  /** The inline-code rewrite: every lazy `` `X` `` becomes `<code class="…">X</code>`. */
  function InlineCode(line: string): string {
    Replace(line, "`", CodeOpen, CodeClose)
  }

  /** The per-line rewrite of `formatMessage`. */
  function FormatLine(line: string): string {
    var bolded := Bold(line);
    if StartsWith(bolded, Fence) then PreOpen + bolded[3..] + PreClose
    else InlineCode(bolded)
  }

  /** `formatMessage`: the rewritten lines of `content.split('\n')`, joined
      with `<br/>`. */
  function FormatMessage(content: string): string {
    var lines := Split(content, '\n');
    Join(seq(|lines|, i requires 0 <= i < |lines| => FormatLine(lines[i])), "<br/>")
  }

  /** Bolding passes a line's first character through when it is not `*`. */
  lemma BoldKeepsFirst(s: string)
    requires |s| > 0 && s[0] != '*'
    ensures Bold(s) == [s[0]] + Bold(s[1..])
  {
    assert !StartsWith(s, "**");
    ReplaceHead(s, "**", StrongOpen, StrongClose);
  }

  /** Code-block detection looks at the original line only: the bolded line
      starts with three backticks exactly when the line does, and then it is
      the three backticks followed by the bolded rest. */
  lemma BoldKeepsFence(line: string)
    ensures StartsWith(Bold(line), Fence) <==> StartsWith(line, Fence)
    ensures StartsWith(line, Fence) ==> Bold(line) == Fence + Bold(line[3..])
  {
    if StartsWith(line, Fence) {
      var l1, l2, l3 := line[1..], line[2..], line[3..];
      assert line[0] == '`' && line[1] == '`' && line[2] == '`' by {
        assert line[..3] == Fence;
      }
      BoldKeepsFirst(line);
      assert l1[0] == '`' && l1[1..] == l2;
      BoldKeepsFirst(l1);
      assert l2[0] == '`' && l2[1..] == l3;
      BoldKeepsFirst(l2);
      assert Bold(line) == [line[0]] + ([l1[0]] + ([l2[0]] + Bold(l3)));
      assert Bold(line) == Fence + Bold(l3);
      assert (Fence + Bold(l3))[..3] == Fence;
    } else if StartsWith(Bold(line), Fence) {
      FenceComesFromLine(line);
    }
  }

  /** The converse half of `BoldKeepsFence`, taken one character at a time. */
  lemma FenceComesFromLine(line: string)
    ensures StartsWith(Bold(line), Fence) ==> StartsWith(line, Fence)
  {
    var b0 := Bold(line);
    if StartsWith(b0, Fence) {
      assert b0[0] == '`' && b0[1] == '`' && b0[2] == '`' by {
        assert b0[..3] == Fence;
      }
      BacktickComesFromLine(line);
      var b1 := Bold(line[1..]);
      assert b1[0] == '`' && b1[1] == '`' by {
        assert b0 == [line[0]] + b1;
      }
      BacktickComesFromLine(line[1..]);
      var b2 := Bold(line[2..]);
      assert line[1..][1..] == line[2..];
      assert b2[0] == '`' by {
        assert b1 == [line[1]] + b2;
      }
      BacktickComesFromLine(line[2..]);
      assert line[..3] == Fence by {
        assert line[1..][0] == line[1] && line[2..][0] == line[2];
      }
    }
  }

  /** A bolded line that starts with a backtick comes from a line that starts
      with one, and the rest of the bolded line is the bolded rest. */
  lemma BacktickComesFromLine(s: string)
    ensures |Bold(s)| > 0 && Bold(s)[0] == '`' ==> |s| > 0 && s[0] == '`' && Bold(s) == [s[0]] + Bold(s[1..])
  {
    if s != [] {
      ReplaceHead(s, "**", StrongOpen, StrongClose);
    } else {
      assert Tokenize(s, "**") == [];
    }
  }

  /** A line that starts with three backticks becomes a code block holding the
      bolded rest of the line; inline code is not rewritten in it. */
  lemma CodeBlockLine(line: string)
    requires StartsWith(line, Fence)
    ensures FormatLine(line) == PreOpen + Bold(line[3..]) + PreClose
  {
    BoldKeepsFence(line);
  }

  /** Any other line is bolded and then has its inline code rewritten. */
  lemma OrdinaryLine(line: string)
    requires !StartsWith(line, Fence)
    ensures FormatLine(line) == InlineCode(Bold(line))
  {
    BoldKeepsFence(line);
  }

  /** A line with neither `**` nor a backtick is output unchanged. */
  lemma PlainLineUnchanged(line: string)
    requires forall i :: !OccursAt(line, "**", i)
    requires '`' !in line
    ensures FormatLine(line) == line
  {
    ReplaceWithoutDelimiter(line, "**", StrongOpen, StrongClose);
    forall i ensures !OccursAt(line, "`", i) {
      if 0 <= i < |line| {
        assert line[i..i + 1] == [line[i]];
      }
    }
    ReplaceWithoutDelimiter(line, "`", CodeOpen, CodeClose);
    assert |line| >= 3 ==> line[..3][0] == line[0];
  }

  /** Line count and order are kept: a message written as lines joined by `\n`
      renders as those lines, each rewritten, joined by `<br/>`. */
  lemma FormatMessageLines(lines: seq<string>)
    requires |lines| > 0
    requires forall i :: 0 <= i < |lines| ==> '\n' !in lines[i]
    ensures FormatMessage(Join(lines, "\n")) == Join(seq(|lines|, i requires 0 <= i < |lines| => FormatLine(lines[i])), "<br/>")
  {
    SplitJoin(lines, '\n');
  }

  /** A line without `*` has no `**` in it. */
  lemma NoStarNoBold(line: string)
    requires '*' !in line
    ensures forall i :: !OccursAt(line, "**", i)
  {
    forall i ensures !OccursAt(line, "**", i) {
      if 0 <= i && i + 2 <= |line| {
        assert line[i..i + 2][0] == line[i];
      }
    }
  }

  /** A message with no `*` and no backtick only has its newlines turned into
      `<br/>`. */
  lemma PlainMessage(content: string)
    requires '*' !in content && '`' !in content
    ensures FormatMessage(content) == Join(Split(content, '\n'), "<br/>")
  {
    var lines := Split(content, '\n');
    JoinOmits(lines, "\n", '*');
    JoinOmits(lines, "\n", '`');
    forall k | 0 <= k < |lines|
      ensures FormatLine(lines[k]) == lines[k]
    {
      NoStarNoBold(lines[k]);
      PlainLineUnchanged(lines[k]);
    }
    assert seq(|lines|, i requires 0 <= i < |lines| => FormatLine(lines[i])) == lines;
  }
}

=== FILE: route.dfy ===
/** The chat endpoint `POST /api/chat`, split in two pure halves: `Classify`
    decides from the request what the handler does (reply at once, or call one
    of the two backend endpoints, and with what body), and the reply functions
    turn that decision and the backend's outcome into the handler's response.
    The network, `console.error` and the environment are parameters. */
module Route {
  import opened Wrappers
  import opened Text
  import opened Utils

  datatype Role = User | Assistant

  datatype Message = Message(role: Role, content: string)

  /** What `await req.json()` gives: a body whose `messages` field may be
      missing, or the value thrown while reading it. */
  datatype ChatRequest = Unreadable(fault: Thrown) | ChatRequest(messages: Option<seq<Message>>)

  /** Which branch asked for the ingestion: a slash command, or a bare link. */
  datatype Origin = Command | Link

  /** The `POST` to the ingest endpoint: its address and its JSON body. */
  datatype IngestCall = IngestCall(endpoint: string, file: GithubFile)

  /** The `POST` to the semantic-search endpoint: its address and its JSON body. */
  datatype SearchCall = SearchCall(endpoint: string, query: string, limit: int, similarityThreshold: real, synthesize: bool)

  /** What the handler decided to do with a request. */
  datatype Plan =
    | Reject(status: int, error: string)
    | ShowHelp
    | ShowUnknownCommand
    | Ingest(ingestCall: IngestCall, origin: Origin)
    | Search(searchCall: SearchCall)

  /** The body of a response whose status is not OK: JSON whose `detail` is a
      string or absent, or text that is not JSON at all. */
  datatype ErrorBody = JsonBody(detail: Option<string>) | UnreadableBody

  /** How a backend call ended: `fetch` or reading the OK body threw, the
      status was not OK, or the OK body was read. */
  datatype Outcome<T> = Failed(fault: Thrown) | NotOk(status: int, body: ErrorBody) | Ok(data: T)

  datatype IngestResponse = IngestResponse(
    success: bool, repoUrl: string, filePath: string, summary: string,
    embeddingDimensions: int, insertedId: string, message: string)

  datatype SearchResponse = SearchResponse(
    success: bool, query: string, totalMatches: int, source: string,
    reasoning: Option<string>, synthesizedAnswer: Option<string>,
    synthesisSources: Option<seq<string>>, synthesisModel: Option<string>, message: string)

  /** The handler's response: an assistant message with status 200, or an
      `{ error }` body with an error status. */
  datatype Reply = AssistantReply(content: string) | ErrorResponse(status: int, error: string)

  /** A string field is truthy when present and non-empty. */
  predicate Truthy(v: Option<string>) {
    v.Some? && v.value != []
  }

  const NoMessages: string := "No messages provided"
  const NoLinkFound: string := "Could not extract GitHub URL"
  const BadLink: string := "Invalid GitHub URL format. Please use a URL like: https://github.com/owner/repo/blob/branch/path/to/file.ext"
  const HelpCommand: string := "/help"
  const SearchLimit: int := 5
  const SimilarityThreshold: real := 0.7
  const UnknownError: string := "Unknown error"

  const HelpText: string :=
    "# \U{1F680} SemSearch AI - How It Works\n"
    + "\n"
    + "**SemSearch AI** is an intelligent code understanding system that uses AI to help you explore and understand code repositories.\n"
    + "\n"
    + "## \U{1F4E5} Ingesting Code\n"
    + "\n"
    + "Use the `/ingest` command to add files to the knowledge base:\n"
    + "\n"
    + "```/ingest https://github.com/owner/repo/blob/main/src/main.cpp\n"
    + "**What happens during ingestion:**\n"
    + "1. **Fetches** the file from GitHub\n"
    + "2. **Summarizes** the code using Claude AI\n"
    + "3. **Creates embeddings** using OpenAI (1536-dimensional vectors)\n"
    + "4. **Stores** in MongoDB Atlas with vector search index\n"
    + "\n"
    + "## \U{1F50D} Search Strategies\n"
    + "When you ask a question, an **AI agent (Claude Sonnet)** analyzes your query and intelligently chooses the best search strategy:\n"
    + "\n"
    + "### 1\U{FE0F}\U{20E3} Local Strategy\n"
    + "- Searches only your **ingested code** in MongoDB\n"
    + "- Uses **vector similarity search** with embeddings\n"
    + "- Best for: Questions about specific code you've ingested\n"
    + "- Example: *\"How does the authentication function work?\"*\n"
    + "\n"
    + "### 2\U{FE0F}\U{20E3} External Strategy (Tavily)\n"
    + "- Searches **external documentation** and web resources\n"
    + "- Uses Tavily's web search API\n"
    + "- Best for: General programming concepts, syntax, library docs\n"
    + "- Example: *\"What is the difference between async and await?\"*\n"
    + "\n"
    + "### 3\U{FE0F}\U{20E3} Hybrid Strategy\n"
    + "- Searches **both local code AND external sources**\n"
    + "- Combines results from MongoDB + Tavily\n"
    + "- Best for: Complex questions needing both context and documentation\n"
    + "- Example: *\"How does this auth code compare to OAuth best practices?\"*\n"
    + "\n"
    + "## \U{1F916} How the Agent Decides\n"
    + "The AI agent uses **tool calling** to decide:\n"
    + "1. Analyzes your question's intent\n"
    + "2. Considers whether it's about local code or general knowledge\n"
    + "3. Chooses the optimal strategy (local, external, or hybrid)\n"
    + "4. Provides reasoning for its choice\n"
    + "\n"
    + "## \U{2728} Answer Synthesis\n"
    + "After retrieving results, **Claude Haiku** synthesizes a natural language answer:\n"
    + "- Combines information from all search results\n"
    + "- Provides clear, concise explanations\n"
    + "- Cites sources (file paths or web URLs)\n"
    + "- Uses fast, cost-efficient Haiku model for speed\n"
    + "\n"
    + "## \U{1F3AF} Tips\n"
    + "- **Ingest multiple files** to build a comprehensive knowledge base\n"
    + "- **Ask specific questions** for local search\n"
    + "- **Ask conceptual questions** to trigger external search\n"
    + "- **Check the reasoning** footer to see which strategy was used\n"
    + "\n"
    + "---\n"
    + "\n"
    + "**Architecture:** FastAPI + MongoDB Atlas + Anthropic Claude + OpenAI + Tavily"

  const UnknownCommandText: string :=
    "\U{274C} **Unknown command**\n"
    + "\n"
    + "Available commands:\n"
    + "- `/help` - Learn how SemSearch AI works\n"
    + "- `/ingest <repo_url> <file_path>` - Ingest a file from a GitHub repository\n"
    + "- `/ingest <full_github_blob_url>` - Ingest a file using a full GitHub URL\n"
    + "\n"
    + "Example: `/ingest https://github.com/owner/repo src/main.py`"

  function IngestEndpoint(apiUrl: string): string {
    apiUrl + "/api/ingest/file"
  }

  function SearchEndpoint(apiUrl: string): string {
    apiUrl + "/api/semantic_search"
  }

  /** The request body a plain question is sent with. */
  function SearchFor(apiUrl: string, question: string): SearchCall {
    SearchCall(SearchEndpoint(apiUrl), question, SearchLimit, SimilarityThreshold, true)
  }

  /** The branch taken for the text of the last message. */
  function ClassifyText(text: string, apiUrl: string, isSlash: string -> bool,
                        parseIngest: string -> Option<GithubFile>): (p: Plan)
    ensures !p.Reject?
    ensures p.ShowHelp? <==> isSlash(text) && Trim(text) == HelpCommand
    ensures p.ShowUnknownCommand? <==> isSlash(text) && Trim(text) != HelpCommand && parseIngest(text).None?
    ensures p.Ingest? && p.origin == Command <==> isSlash(text) && Trim(text) != HelpCommand && parseIngest(text).Some?
    ensures p.Ingest? && p.origin == Link <==> !isSlash(text) && IsGithubUrl(text)
    ensures p.Search? <==> !isSlash(text) && !IsGithubUrl(text)
    ensures p.Ingest? ==> p.ingestCall.endpoint == IngestEndpoint(apiUrl)
    ensures p.Ingest? && p.origin == Command ==> parseIngest(text) == Some(p.ingestCall.file)
    ensures p.Ingest? && p.origin == Link ==> FirstMatch(text).Some? && ParseGithubUrl(FirstMatch(text).value) == Some(p.ingestCall.file)
    ensures p.Search? ==> p.searchCall == SearchFor(apiUrl, text)
  {
    if isSlash(text) then
      if Trim(text) == HelpCommand then ShowHelp
      else
        match parseIngest(text)
        case Some(file) => Ingest(IngestCall(IngestEndpoint(apiUrl), file), Command)
        case None => ShowUnknownCommand
    else if IsGithubUrl(text) then
      match FirstMatch(text)
      case None => Reject(400, NoLinkFound)
      case Some(link) =>
        match ParseGithubUrl(link)
        case None => Reject(400, BadLink)
        case Some(file) => Ingest(IngestCall(IngestEndpoint(apiUrl), file), Link)
    else
      Search(SearchFor(apiUrl, text))
  }

  /** The request has no history to answer: `messages` is missing or empty. */
  predicate NoHistory(req: ChatRequest) {
    req.ChatRequest? && (req.messages.None? || |req.messages.value| == 0)
  }

  /** The text of the last message of a request that has one. */
  function LastText(req: ChatRequest): string
    requires req.ChatRequest? && !NoHistory(req)
  {
    var ms := req.messages.value;
    ms[|ms| - 1].content
  }

  /** The whole decision of the handler, before any backend is called. */
  function Classify(req: ChatRequest, env: Option<string>, isSlash: string -> bool,
                    parseIngest: string -> Option<GithubFile>): (p: Plan)
    ensures p.Reject? <==> req.Unreadable? || NoHistory(req)
    ensures req.Unreadable? ==> p == Reject(500, FormatError(req.fault))
    ensures NoHistory(req) ==> p == Reject(400, NoMessages)
  {
    match req
    case Unreadable(fault) => Reject(500, FormatError(fault))
    case ChatRequest(messages) =>
      if NoHistory(req) then Reject(400, NoMessages)
      else ClassifyText(LastText(req), GetApiUrl(env), isSlash, parseIngest)
  }

  /** The message of the `Error` thrown for a response that is not OK: the
      body's `detail` if truthy, otherwise `HTTP <status>`; a body that is not
      JSON is read as `{ detail: 'Unknown error' }`. */
  function NotOkMessage(status: int, body: ErrorBody): (m: string)
    ensures m != []
    ensures body.UnreadableBody? ==> m == UnknownError
    ensures body.JsonBody? && Truthy(body.detail) ==> m == body.detail.value
    ensures body.JsonBody? && !Truthy(body.detail) ==> m == "HTTP " + IntToString(status)
  {
    match body
    case UnreadableBody => UnknownError
    case JsonBody(detail) => if Truthy(detail) then detail.value else "HTTP " + IntToString(status)
  }

  /** The value the enclosing `catch` receives when a backend call fails. */
  function FailureOf<T>(o: Outcome<T>): (t: Thrown)
    requires !o.Ok?
    ensures o.Failed? ==> t == o.fault
    ensures o.NotOk? ==> t.ErrorObject? && FormatError(t) == NotOkMessage(o.status, o.body)
  {
    match o
    case Failed(fault) => fault
    case NotOk(status, body) => ErrorObject(NotOkMessage(status, body))
  }

  /** `lead`, then `m`, then `tail`. */
  function Wrap(lead: string, m: string, tail: string): string {
    lead + m + tail
  }

  /** Recovers `m` from `Wrap(lead, m, tail)`; `None` for text not of that shape. */
  function Unwrap(lead: string, text: string, tail: string): (r: Option<string>)
    ensures r.Some? ==> Wrap(lead, r.value, tail) == text
  {
    if |lead| + |tail| <= |text| && StartsWith(text, lead) && text[|text| - |tail|..] == tail then
      var m := text[|lead|..|text| - |tail|];
      assert text == text[..|lead|] + m + text[|text| - |tail|..];
      Some(m)
    else None
  }

  /** Wrapping and unwrapping are inverse: the error text can be read back
      from a failure reply. */
  lemma UnwrapWrap(lead: string, m: string, tail: string)
    ensures Unwrap(lead, Wrap(lead, m, tail), tail) == Some(m)
  {
    var t := Wrap(lead, m, tail);
    assert t[..|lead|] == lead;
    assert t[|t| - |tail|..] == tail;
    assert t[|lead|..|t| - |tail|] == m;
  }

  const IngestErrorLead: string := "\U{274C} **Error ingesting file:** "
  const SearchErrorLead: string := "\U{274C} **Error searching:** "
  const SearchAdvice: string := "\n\nPlease make sure you've ingested a file first, or try a different question."

  /** The advice after an ingestion error, which names what the user typed. */
  function IngestAdvice(origin: Origin): string {
    match origin
    case Command => "\n\nPlease check the command format and try again."
    case Link => "\n\nPlease check the URL and try again."
  }

  /** The success message, the same for both origins. */
  function IngestSuccess(data: IngestResponse): string {
    "\U{2705} **File ingested successfully!**\n\n"
    + ("**Repository:** " + data.repoUrl + "\n")
    + ("**File:** " + data.filePath + "\n")
    + ("**Summary:** " + data.summary + "\n\n")
    + ("The file has been embedded with " + IntToString(data.embeddingDimensions)
       + " dimensions. You can now ask questions about this code!")
  }

  /** The assistant text for the outcome of an ingestion. */
  function IngestReply(origin: Origin, o: Outcome<IngestResponse>): string {
    match o
    case Ok(data) => IngestSuccess(data)
    case _ => Wrap(IngestErrorLead, FormatError(FailureOf(o)), IngestAdvice(origin))
  }

  /** The first part of a search reply: the synthesized answer if truthy. */
  function Answer(data: SearchResponse): string {
    if Truthy(data.synthesizedAnswer) then data.synthesizedAnswer.value
    else "Found " + IntToString(data.totalMatches) + " matches, but no synthesized answer was generated."
  }

  /** The first three sources, when there are any. */
  function SourcesLine(sources: Option<seq<string>>): string {
    if sources.Some? && |sources.value| > 0 then "**Sources:** " + Join(Take(sources.value, 3), ", ")
    else ""
  }

  function ReasoningLine(reasoning: Option<string>): string {
    if Truthy(reasoning) then "**Reasoning:** " + reasoning.value + "\n" else ""
  }

  /** The metadata after the answer. */
  function Footer(data: SearchResponse): string {
    "\n\n---\n\n" + ("**Search Strategy:** " + data.source + "\n")
    + (ReasoningLine(data.reasoning) + SourcesLine(data.synthesisSources))
  }

  /** The assistant text for the outcome of a search. */
  function SearchReply(o: Outcome<SearchResponse>): string {
    match o
    case Ok(data) => Answer(data) + Footer(data)
    case _ => Wrap(SearchErrorLead, FormatError(FailureOf(o)), SearchAdvice)
  }

  /** The handler: the decision, then the one backend call it asks for, if
      any, then the reply. */
  function Post(req: ChatRequest, env: Option<string>,
                isSlash: string -> bool, parseIngest: string -> Option<GithubFile>,
                ingest: IngestCall -> Outcome<IngestResponse>,
                search: SearchCall -> Outcome<SearchResponse>): (r: Reply)
    ensures r.ErrorResponse? <==> req.Unreadable? || NoHistory(req)
    ensures req.Unreadable? ==> r == ErrorResponse(500, FormatError(req.fault))
    ensures NoHistory(req) ==> r == ErrorResponse(400, NoMessages)
  {
    match Classify(req, env, isSlash, parseIngest)
    case Reject(status, error) => ErrorResponse(status, error)
    case ShowHelp => AssistantReply(HelpText)
    case ShowUnknownCommand => AssistantReply(UnknownCommandText)
    case Ingest(call, origin) => AssistantReply(IngestReply(origin, ingest(call)))
    case Search(call) => AssistantReply(SearchReply(search(call)))
  }

  /** A request whose history ends in message `m`. */
  function Asking(history: seq<Message>, m: Message): ChatRequest {
    ChatRequest(Some(history + [m]))
  }

  /** A request with history is decided on its last message's text. */
  lemma ClassifyAsking(history: seq<Message>, m: Message, env: Option<string>,
                       isSlash: string -> bool, parseIngest: string -> Option<GithubFile>)
    ensures Classify(Asking(history, m), env, isSlash, parseIngest) == ClassifyText(m.content, GetApiUrl(env), isSlash, parseIngest)
  {
    assert LastText(Asking(history, m)) == m.content;
  }

  /** The decision reads only the last message of the history. */
  lemma ClassifyReadsLastMessage(h1: seq<Message>, h2: seq<Message>, m: Message, env: Option<string>,
                                 isSlash: string -> bool, parseIngest: string -> Option<GithubFile>)
    ensures Classify(Asking(h1, m), env, isSlash, parseIngest) == Classify(Asking(h2, m), env, isSlash, parseIngest)
  {
    assert LastText(Asking(h1, m)) == m.content == LastText(Asking(h2, m));
  }

  /** Only the last message is read: earlier history never changes the reply. */
  lemma OnlyLastMessageMatters(h1: seq<Message>, h2: seq<Message>, m: Message, env: Option<string>,
                               isSlash: string -> bool, parseIngest: string -> Option<GithubFile>,
                               ingest: IngestCall -> Outcome<IngestResponse>,
                               search: SearchCall -> Outcome<SearchResponse>)
    ensures Post(Asking(h1, m), env, isSlash, parseIngest, ingest, search)
         == Post(Asking(h2, m), env, isSlash, parseIngest, ingest, search)
  {
    ClassifyReadsLastMessage(h1, h2, m, env, isSlash, parseIngest);
  }

  /** `/help` with white space around it is recognised as `/help`. */
  lemma ClassifyPaddedHelp(history: seq<Message>, role: Role, before: string, after: string,
                           env: Option<string>, isSlash: string -> bool,
                           parseIngest: string -> Option<GithubFile>)
    requires AllSpace(before) && AllSpace(after)
    requires isSlash(before + HelpCommand + after)
    ensures Classify(Asking(history, Message(role, before + HelpCommand + after)), env, isSlash, parseIngest) == ShowHelp
  {
    TrimPadded(before, HelpCommand, after);
    assert LastText(Asking(history, Message(role, before + HelpCommand + after))) == before + HelpCommand + after;
  }

  /** `/help` with white space around it, when it counts as a slash command,
      gets the help text. */
  lemma HelpIgnoresPadding(history: seq<Message>, role: Role, before: string, after: string,
                           env: Option<string>, isSlash: string -> bool,
                           parseIngest: string -> Option<GithubFile>,
                           ingest: IngestCall -> Outcome<IngestResponse>,
                           search: SearchCall -> Outcome<SearchResponse>)
    requires AllSpace(before) && AllSpace(after)
    requires isSlash(before + HelpCommand + after)
    ensures Post(Asking(history, Message(role, before + HelpCommand + after)), env, isSlash, parseIngest, ingest, search)
         == AssistantReply(HelpText)
  {
    ClassifyPaddedHelp(history, role, before, after, env, isSlash, parseIngest);
  }

  /** A slash command is answered inside the slash branch: the search backend
      is never consulted, and when the command is not an ingestion neither is
      the ingest backend. */
  lemma SlashCommandNeverSearches(req: ChatRequest, env: Option<string>,
                                  isSlash: string -> bool, parseIngest: string -> Option<GithubFile>,
                                  ingest1: IngestCall -> Outcome<IngestResponse>,
                                  ingest2: IngestCall -> Outcome<IngestResponse>,
                                  search1: SearchCall -> Outcome<SearchResponse>,
                                  search2: SearchCall -> Outcome<SearchResponse>)
    requires req.ChatRequest? && !NoHistory(req) && isSlash(LastText(req))
    ensures Post(req, env, isSlash, parseIngest, ingest1, search1)
         == Post(req, env, isSlash, parseIngest, ingest1, search2)
    ensures parseIngest(LastText(req)).None? ==>
              (Post(req, env, isSlash, parseIngest, ingest1, search1)
               == Post(req, env, isSlash, parseIngest, ingest2, search2))
    ensures Classify(req, env, isSlash, parseIngest).Ingest? ==>
              Classify(req, env, isSlash, parseIngest).origin == Command
  {
    var p := Classify(req, env, isSlash, parseIngest);
    assert p.ShowHelp? || p.ShowUnknownCommand? || (p.Ingest? && p.origin == Command);
  }

  /** A slash command that `parseIngestCommand` accepts is ingested with the
      record it parsed, at the configured API address. */
  lemma CommandIngestsParsedFile(req: ChatRequest, env: Option<string>,
                                 isSlash: string -> bool, parseIngest: string -> Option<GithubFile>,
                                 ingest: IngestCall -> Outcome<IngestResponse>,
                                 search: SearchCall -> Outcome<SearchResponse>)
    requires req.ChatRequest? && !NoHistory(req)
    requires isSlash(LastText(req)) && Trim(LastText(req)) != HelpCommand
    requires parseIngest(LastText(req)).Some?
    ensures Post(req, env, isSlash, parseIngest, ingest, search)
         == AssistantReply(IngestReply(Command, ingest(IngestCall(IngestEndpoint(GetApiUrl(env)), parseIngest(LastText(req)).value))))
  {
    assert Classify(req, env, isSlash, parseIngest)
        == Ingest(IngestCall(IngestEndpoint(GetApiUrl(env)), parseIngest(LastText(req)).value), Command);
  }

  /** The ingest request for a link `b` followed by `after`: `b`'s repository,
      and `b`'s path extended by the rest of its line. */
  function LinkCall(env: Option<string>, b: BlobUrl, after: string): IngestCall {
    IngestCall(IngestEndpoint(GetApiUrl(env)), GithubFile(RepoUrl(b.owner, b.repo), b.path + after[..Span(after, LineChars)]))
  }

  /** A message that is not a slash command and whose first match parses is
      ingested with what the parse gives. */
  lemma ClassifyFoundLink(text: string, apiUrl: string, isSlash: string -> bool,
                          parseIngest: string -> Option<GithubFile>, link: string, file: GithubFile)
    requires !isSlash(text) && FirstMatch(text) == Some(link) && ParseGithubUrl(link) == Some(file)
    ensures ClassifyText(text, apiUrl, isSlash, parseIngest) == Ingest(IngestCall(IngestEndpoint(apiUrl), file), Link)
  {
  }

  /** A message that is not a slash command and holds a link `b`, with no
      earlier match, is classified as an ingestion of `b` and the rest of its
      line. */
  lemma ClassifyLink(history: seq<Message>, role: Role, before: string, b: BlobUrl, after: string,
                     env: Option<string>, isSlash: string -> bool,
                     parseIngest: string -> Option<GithubFile>)
    requires Valid(b)
    requires forall j :: 0 <= j < |before| ==> !MatchAt(before + Compose(b) + after, j)
    requires !isSlash(before + Compose(b) + after)
    ensures Classify(Asking(history, Message(role, before + Compose(b) + after)), env, isSlash, parseIngest)
         == Ingest(LinkCall(env, b, after), Link)
  {
    var text := before + Compose(b) + after;
    var link := Compose(b) + after[..Span(after, LineChars)];
    FirstMatchTakesRestOfLine(before, b, after);
    ClassifyFoundLink(text, GetApiUrl(env), isSlash, parseIngest, link, LinkCall(env, b, after).file);
    ClassifyAsking(history, Message(role, text), env, isSlash, parseIngest);
  }

  /** Such a message is answered with the outcome of that ingestion. */
  lemma LinkIngestsRestOfLine(history: seq<Message>, role: Role, before: string, b: BlobUrl, after: string,
                              env: Option<string>, isSlash: string -> bool,
                              parseIngest: string -> Option<GithubFile>,
                              ingest: IngestCall -> Outcome<IngestResponse>,
                              search: SearchCall -> Outcome<SearchResponse>)
    requires Valid(b)
    requires forall j :: 0 <= j < |before| ==> !MatchAt(before + Compose(b) + after, j)
    requires !isSlash(before + Compose(b) + after)
    ensures Post(Asking(history, Message(role, before + Compose(b) + after)), env, isSlash, parseIngest, ingest, search)
         == AssistantReply(IngestReply(Link, ingest(LinkCall(env, b, after))))
  {
    ClassifyLink(history, role, before, b, after, env, isSlash, parseIngest);
  }

  /** On a single line, the rest of the line is everything after the link. */
  lemma LinkCallWholeLine(env: Option<string>, b: BlobUrl, after: string)
    requires NoLineTerminator(after)
    ensures LinkCall(env, b, after)
         == IngestCall(IngestEndpoint(GetApiUrl(env)), GithubFile(RepoUrl(b.owner, b.repo), b.path + after))
  {
    assert AllIn(after, LineChars);
    SpanAll(after, LineChars);
    assert after[..|after|] == after;
  }

  /** Any other message is a question, sent verbatim with limit 5, threshold
      0.7 and synthesis on. */
  lemma QuestionIsSearched(req: ChatRequest, env: Option<string>,
                           isSlash: string -> bool, parseIngest: string -> Option<GithubFile>,
                           ingest: IngestCall -> Outcome<IngestResponse>,
                           search: SearchCall -> Outcome<SearchResponse>)
    requires req.ChatRequest? && !NoHistory(req)
    requires !isSlash(LastText(req)) && !IsGithubUrl(LastText(req))
    ensures Post(req, env, isSlash, parseIngest, ingest, search)
         == AssistantReply(SearchReply(search(SearchCall(GetApiUrl(env) + "/api/semantic_search",
                                                         LastText(req), 5, 0.7, true))))
  {
  }

  /** The ingestion success message reads only the repository, file, summary
      and dimension fields: not the origin, and not `success`. */
  lemma IngestSuccessReadsFourFields(o1: Origin, o2: Origin, d1: IngestResponse, d2: IngestResponse)
    requires d1.repoUrl == d2.repoUrl && d1.filePath == d2.filePath
    requires d1.summary == d2.summary && d1.embeddingDimensions == d2.embeddingDimensions
    ensures IngestReply(o1, Ok(d1)) == IngestReply(o2, Ok(d2))
  {
  }

  /** The reply shows which way an ingestion went: it starts with the check
      mark exactly when the backend answered OK. */
  lemma IngestReplyTellsOutcome(origin: Origin, o: Outcome<IngestResponse>)
    ensures |IngestReply(origin, o)| > 0
    ensures IngestReply(origin, o)[0] == '\U{2705}' <==> o.Ok?
  {
    var r := IngestReply(origin, o);
    if o.Ok? {
      assert r[0] == IngestSuccess(o.data)[0] == '\U{2705}';
    } else {
      assert r[0] == IngestErrorLead[0] == '\U{274C}';
    }
  }

  /** A failed ingestion's reply carries the formatted error, which can be
      read back from it. */
  lemma IngestFailureReadsBack(origin: Origin, o: Outcome<IngestResponse>)
    requires !o.Ok?
    ensures Unwrap(IngestErrorLead, IngestReply(origin, o), IngestAdvice(origin)) == Some(FormatError(FailureOf(o)))
  {
    UnwrapWrap(IngestErrorLead, FormatError(FailureOf(o)), IngestAdvice(origin));
  }

  /** A failed search's reply carries the formatted error, which can be read
      back from it. */
  lemma SearchFailureReadsBack(o: Outcome<SearchResponse>)
    requires !o.Ok?
    ensures Unwrap(SearchErrorLead, SearchReply(o), SearchAdvice) == Some(FormatError(FailureOf(o)))
  {
    UnwrapWrap(SearchErrorLead, FormatError(FailureOf(o)), SearchAdvice);
  }

  /** The message shown for a status that is not OK never depends on the
      status when the body has a truthy detail or is not JSON, and never on
      the body's `success`. */
  lemma FailureMessageCases<T>(s1: int, s2: int, detail: string)
    requires detail != []
    ensures FormatError(FailureOf<T>(NotOk(s1, JsonBody(Some(detail))))) == detail
    ensures FormatError(FailureOf<T>(NotOk(s1, UnreadableBody)))
         == FormatError(FailureOf<T>(NotOk(s2, UnreadableBody))) == UnknownError
    ensures FormatError(FailureOf<T>(NotOk(s1, JsonBody(Some([]))))) == "HTTP " + IntToString(s1)
  {
  }

  /** A search reply begins with the answer, and the answer is the
      synthesized one exactly when that is truthy. */
  lemma SearchReplyStartsWithAnswer(data: SearchResponse)
    ensures StartsWith(SearchReply(Ok(data)), Answer(data))
    ensures Truthy(data.synthesizedAnswer) ==> StartsWith(SearchReply(Ok(data)), data.synthesizedAnswer.value)
  {
    assert SearchReply(Ok(data))[..|Answer(data)|] == Answer(data);
  }

  /** Only the first three synthesis sources are shown. */
  lemma OnlyThreeSources(data: SearchResponse, more: seq<string>)
    requires data.synthesisSources.Some? && |data.synthesisSources.value| >= 3
    ensures SearchReply(Ok(data)) == SearchReply(Ok(data.(synthesisSources := Some(data.synthesisSources.value + more))))
  {
    var s := data.synthesisSources.value;
    assert Take(s + more, 3) == Take(s, 3);
  }

  /** An OK search reply reads only five fields of the body: the match
      count, the strategy, the reasoning, the answer and the sources. In
      particular `success` is never read, so `success: false` is shown like
      any other answer. */
  lemma SearchReplyReadsFiveFields(d1: SearchResponse, d2: SearchResponse)
    requires d1.totalMatches == d2.totalMatches && d1.source == d2.source
    requires d1.reasoning == d2.reasoning && d1.synthesizedAnswer == d2.synthesizedAnswer
    requires d1.synthesisSources == d2.synthesisSources
    ensures SearchReply(Ok(d1)) == SearchReply(Ok(d2))
  {
  }

  /** The `success` field of a search body does not change the reply. */
  lemma SearchReplyIgnoresSuccess(d: SearchResponse, success: bool)
    ensures SearchReply(Ok(d.(success := success))) == SearchReply(Ok(d))
  {
    SearchReplyReadsFiveFields(d.(success := success), d);
  }

  /** A falsy reasoning, absent or empty, adds no line. */
  lemma FalsyReasoningAddsNoLine(d: SearchResponse)
    requires !Truthy(d.reasoning)
    ensures SearchReply(Ok(d)) == SearchReply(Ok(d.(reasoning := None)))
  {
  }

  /** Absent sources and an empty list of sources both add no Sources line. */
  lemma AbsentSourcesLikeEmpty(d: SearchResponse)
    ensures SearchReply(Ok(d.(synthesisSources := None))) == SearchReply(Ok(d.(synthesisSources := Some([]))))
  {
  }

  /** With a falsy reasoning and no sources, the reply is the answer, the
      rule and the strategy line, and nothing more. */
  lemma BareSearchReply(d: SearchResponse)
    requires !Truthy(d.reasoning)
    requires d.synthesisSources.None? || d.synthesisSources.value == []
    ensures SearchReply(Ok(d)) == Answer(d) + "\n\n---\n\n" + "**Search Strategy:** " + d.source + "\n"
  {
    assert ReasoningLine(d.reasoning) + SourcesLine(d.synthesisSources) == [];
    assert Footer(d) == "\n\n---\n\n" + ("**Search Strategy:** " + d.source + "\n");
  }

  /** A search answered with status 500 and detail "boom" shows "boom"
      between the search error lead and its advice. */
  lemma SearchErrorExample()
    ensures SearchReply(NotOk(500, JsonBody(Some("boom")))) == SearchErrorLead + "boom" + SearchAdvice
  {
    assert NotOkMessage(500, JsonBody(Some("boom"))) == "boom";
  }

  /** A search answered with no synthesized answer and three matches says so. */
  lemma NoAnswerExample(data: SearchResponse)
    requires data.synthesizedAnswer.None? && data.totalMatches == 3
    ensures Answer(data) == "Found " + "3" + " matches, but no synthesized answer was generated."
  {
    assert IntToString(3) == "3";
  }

  /** The answer is followed by the rule that separates it from the metadata. */
  lemma AnswerThenRule(data: SearchResponse)
    ensures StartsWith(SearchReply(Ok(data)), Answer(data) + "\n\n---\n\n")
  {
    var rest := "**Search Strategy:** " + data.source + "\n"
              + (ReasoningLine(data.reasoning) + SourcesLine(data.synthesisSources));
    assert SearchReply(Ok(data)) == (Answer(data) + "\n\n---\n\n") + rest;
  }

  /** The link of the sentence example below. */
  const ExampleLink: BlobUrl := BlobUrl(true, "o", "r", "main", "x.cpp")

  /** "see <link> for details": the link takes the rest of the line with it,
      so the file path becomes "x.cpp for details". */
  lemma ClassifySentenceExample(env: Option<string>, isSlash: string -> bool,
                                parseIngest: string -> Option<GithubFile>)
    requires !isSlash("see " + Compose(ExampleLink) + " for details")
    ensures Classify(Asking([], Message(User, "see " + Compose(ExampleLink) + " for details")), env, isSlash, parseIngest)
         == Ingest(IngestCall(IngestEndpoint(GetApiUrl(env)), GithubFile(RepoUrl("o", "r"), "x.cpp" + " for details")), Link)
  {
    var b := ExampleLink;
    assert Valid(b);
    var after := " for details";
    var text := "see " + Compose(b) + after;
    assert forall j :: 0 <= j < 4 ==> text[j] == "see "[j];
    NoMatchBeforeH(text, 4);
    assert NoLineTerminator(after);
    LinkCallWholeLine(env, b, after);
    ClassifyLink([], User, "see ", b, after, env, isSlash, parseIngest);
  }

  /** The same example, answered with the outcome of that ingestion. */
  lemma LinkInSentenceExample(env: Option<string>, isSlash: string -> bool,
                              parseIngest: string -> Option<GithubFile>,
                              ingest: IngestCall -> Outcome<IngestResponse>,
                              search: SearchCall -> Outcome<SearchResponse>)
    requires !isSlash("see " + Compose(ExampleLink) + " for details")
    ensures Post(Asking([], Message(User, "see " + Compose(ExampleLink) + " for details")),
                 env, isSlash, parseIngest, ingest, search)
         == AssistantReply(IngestReply(Link, ingest(IngestCall(IngestEndpoint(GetApiUrl(env)),
              GithubFile(RepoUrl("o", "r"), "x.cpp" + " for details")))))
  {
    ClassifySentenceExample(env, isSlash, parseIngest);
  }
}

=== FILE: text.dfy ===
/** String helpers shared by the model, each following the JavaScript built-in
    the source calls: the line terminators a regular expression's `.` refuses,
    the white space `String.prototype.trim` removes, `split` on one character,
    `Array.prototype.join`, and the decimal text of an integer inside a
    template literal. */
module Text {

  /** The four characters a JavaScript regular expression's `.` does not match. */
  predicate IsLineTerminator(c: char) {
    c == '\n' || c == '\r' || c == '\U{2028}' || c == '\U{2029}'
  }

  /** Characters a regular expression's `.` matches. */
  predicate IsLineChar(c: char) {
    !IsLineTerminator(c)
  }

  predicate NoLineTerminator(s: string) {
    forall i :: 0 <= i < |s| ==> !IsLineTerminator(s[i])
  }

  /** JavaScript's WhiteSpace and LineTerminator productions: what `trim` strips. */
  predicate IsJsSpace(c: char) {
    || c == '\t' || c == '\U{000B}' || c == '\U{000C}' || c == ' '
    || c == '\U{00A0}' || c == '\U{FEFF}' || c == '\U{1680}'
    || ('\U{2000}' <= c <= '\U{200A}')
    || c == '\U{202F}' || c == '\U{205F}' || c == '\U{3000}'
    || IsLineTerminator(c)
  }

  predicate AllSpace(s: string) {
    forall i :: 0 <= i < |s| ==> IsJsSpace(s[i])
  }

  predicate StartsWith(s: string, prefix: string) {
    |prefix| <= |s| && s[..|prefix|] == prefix
  }

  lemma PrefixOfConcat(a: string, b: string)
    ensures StartsWith(a + b, a)
  {
    assert (a + b)[..|a|] == a;
  }

  /** A text that starts with `prefix` is `prefix` followed by the rest. */
  lemma StartsWithSplit(s: string, prefix: string)
    requires StartsWith(s, prefix)
    ensures s == prefix + s[|prefix|..]
  {
    assert s == s[..|prefix|] + s[|prefix|..];
  }

  /** `word` occurs in `s` starting at index `i`. */
  predicate OccursAt(s: string, word: string, i: int) {
    0 <= i && i + |word| <= |s| && s[i..i + |word|] == word
  }

  lemma AllSpaceCons(c: char, t: string)
    requires IsJsSpace(c) && AllSpace(t)
    ensures AllSpace([c] + t)
  {
    assert forall i :: 1 <= i < |t| + 1 ==> ([c] + t)[i] == t[i - 1];
  }

  lemma AllSpaceSnoc(t: string, c: char)
    requires AllSpace(t) && IsJsSpace(c)
    ensures AllSpace(t + [c])
  {
    assert forall i :: 0 <= i < |t| ==> (t + [c])[i] == t[i];
  }

  /** One step of `TrimStart`: a leading space joins the dropped prefix. */
  lemma TrimStartStep(s: string, r: string)
    requires |s| > 0 && IsJsSpace(s[0])
    requires |r| <= |s| - 1 && r == s[1..][|s| - 1 - |r|..]
    requires AllSpace(s[1..][..|s| - 1 - |r|])
    ensures r == s[|s| - |r|..] && AllSpace(s[..|s| - |r|])
  {
    var t := s[1..];
    var k := |s| - |r|;
    assert s[k..] == t[k - 1..];
    assert s[..k] == [s[0]] + t[..k - 1];
    AllSpaceCons(s[0], t[..k - 1]);
  }

  /** One step of `TrimEnd`: a trailing space joins the dropped suffix. */
  lemma TrimEndStep(s: string, r: string)
    requires |s| > 0 && IsJsSpace(s[|s| - 1])
    requires |r| <= |s| - 1 && r == s[..|s| - 1][..|r|]
    requires AllSpace(s[..|s| - 1][|r|..])
    ensures r == s[..|r|] && AllSpace(s[|r|..])
  {
    var t := s[..|s| - 1];
    assert s[..|r|] == t[..|r|];
    assert s[|r|..] == t[|r|..] + [s[|s| - 1]];
    AllSpaceSnoc(t[|r|..], s[|s| - 1]);
  }

  /** `String.prototype.trimStart`: drops the leading white space and nothing else. */
  function TrimStart(s: string): (r: string)
    ensures |r| <= |s| && r == s[|s| - |r|..]
    ensures AllSpace(s[..|s| - |r|])
    ensures r == [] || !IsJsSpace(r[0])
    decreases |s|
  {
    if |s| > 0 && IsJsSpace(s[0]) then
      var r := TrimStart(s[1..]);
      TrimStartStep(s, r);
      r
    else
      s
  }

  /** `String.prototype.trimEnd`: drops the trailing white space and nothing else. */
  function TrimEnd(s: string): (r: string)
    ensures |r| <= |s| && r == s[..|r|]
    ensures AllSpace(s[|r|..])
    ensures r == [] || !IsJsSpace(r[|r| - 1])
    decreases |s|
  {
    if |s| > 0 && IsJsSpace(s[|s| - 1]) then
      var r := TrimEnd(s[..|s| - 1]);
      TrimEndStep(s, r);
      r
    else
      s
  }

  /** `s` is `r` surrounded by white space, `r` beginning at index `i`. */
  predicate PaddedAt(s: string, r: string, i: int) {
    0 <= i && i + |r| <= |s| && s[i..i + |r|] == r && AllSpace(s[..i]) && AllSpace(s[i + |r|..])
  }

  /** `String.prototype.trim`: the middle of `s` once white space is dropped from both ends. */
  function Trim(s: string): (r: string)
    ensures exists i :: PaddedAt(s, r, i)
    ensures r == [] || (!IsJsSpace(r[0]) && !IsJsSpace(r[|r| - 1]))
  {
    var a := TrimStart(s);
    var r := TrimEnd(a);
    TrimmedIsPadded(s, a, r);
    TrimmedEdges(a, r);
    r
  }

  lemma TrimmedEdges(a: string, r: string)
    requires a == [] || !IsJsSpace(a[0])
    requires |r| <= |a| && r == a[..|r|]
    requires r == [] || !IsJsSpace(r[|r| - 1])
    ensures r == [] || (!IsJsSpace(r[0]) && !IsJsSpace(r[|r| - 1]))
  {
    if r != [] {
      assert r[0] == a[0];
    }
  }

  /** Dropping a white-space prefix and then a white-space suffix leaves the
      middle of a padding. */
  lemma TrimmedIsPadded(s: string, a: string, r: string)
    requires |a| <= |s| && a == s[|s| - |a|..] && AllSpace(s[..|s| - |a|])
    requires |r| <= |a| && r == a[..|r|] && AllSpace(a[|r|..])
    ensures PaddedAt(s, r, |s| - |a|)
  {
    var i := |s| - |a|;
    assert s[i..i + |r|] == a[..|r|];
    assert s[i + |r|..] == a[|r|..];
  }

  lemma {:induction false} TrimStartSkips(pad: string, x: string)
    requires AllSpace(pad)
    requires x == [] || !IsJsSpace(x[0])
    ensures TrimStart(pad + x) == x
    decreases |pad|
  {
    if pad == [] {
      assert pad + x == x;
    } else {
      assert (pad + x)[1..] == pad[1..] + x;
      TrimStartSkips(pad[1..], x);
    }
  }

  lemma {:induction false} TrimEndSkips(x: string, pad: string)
    requires AllSpace(pad)
    requires x == [] || !IsJsSpace(x[|x| - 1])
    ensures TrimEnd(x + pad) == x
    decreases |pad|
  {
    if pad == [] {
      assert x + pad == x;
    } else {
      assert (x + pad)[..|x + pad| - 1] == x + pad[..|pad| - 1];
      TrimEndSkips(x, pad[..|pad| - 1]);
    }
  }

  /** Trimming undoes any white-space padding around a word that has no
      white space at either end. */
  lemma TrimPadded(before: string, word: string, after: string)
    requires AllSpace(before) && AllSpace(after)
    requires |word| > 0 && !IsJsSpace(word[0]) && !IsJsSpace(word[|word| - 1])
    ensures Trim(before + word + after) == word
  {
    assert before + word + after == before + (word + after);
    TrimStartSkips(before, word + after);
    TrimEndSkips(word, after);
  }

  /** `Array.prototype.join(sep)`. */
  function Join(parts: seq<string>, sep: string): string
    decreases |parts|
  {
    if |parts| == 0 then []
    else if |parts| == 1 then parts[0]
    else parts[0] + sep + Join(parts[1..], sep)
  }

  /** `String.prototype.split(c)` for a one-character separator: the pieces
      between occurrences of `c`; empty text gives one empty piece. */
  function Split(s: string, c: char): (r: seq<string>)
    ensures |r| > 0
    ensures forall i :: 0 <= i < |r| ==> c !in r[i]
    ensures Join(r, [c]) == s
    decreases |s|
  {
    if s == [] then [[]]
    else
      var rest := Split(s[1..], c);
      if s[0] == c then
        var r := [[]] + rest;
        assert r[1..] == rest;
        assert s == [c] + s[1..];
        r
      else
        var r := [[s[0]] + rest[0]] + rest[1..];
        assert r[1..] == rest[1..];
        assert s == [s[0]] + s[1..];
        assert forall i :: 1 <= i < |r| ==> r[i] == rest[i];
        r
  }

  lemma {:induction false} SplitWithout(x: string, c: char)
    requires c !in x
    ensures Split(x, c) == [x]
    decreases |x|
  {
    if x != [] {
      SplitWithout(x[1..], c);
      assert [x[0]] + x[1..] == x;
    }
  }

  lemma {:induction false} SplitAfterFirst(x: string, c: char, y: string)
    requires c !in x
    ensures Split(x + [c] + y, c) == [x] + Split(y, c)
    decreases |x|
  {
    var s := x + [c] + y;
    if x == [] {
      assert s[1..] == y;
    } else {
      assert s[1..] == x[1..] + [c] + y;
      SplitAfterFirst(x[1..], c, y);
      assert [x[0]] + x[1..] == x;
    }
  }

  /** Splitting undoes joining, as long as no piece holds the separator. */
  lemma {:induction false} SplitJoin(parts: seq<string>, c: char)
    requires |parts| > 0
    requires forall i :: 0 <= i < |parts| ==> c !in parts[i]
    ensures Split(Join(parts, [c]), c) == parts
    decreases |parts|
  {
    if |parts| == 1 {
      SplitWithout(parts[0], c);
    } else {
      SplitJoin(parts[1..], c);
      SplitAfterFirst(parts[0], c, Join(parts[1..], [c]));
      assert [parts[0]] + parts[1..] == parts;
    }
  }

  /** Every character of every piece survives in the joined text: a
      character missing from the joined text is missing from every piece. */
  lemma {:induction false} JoinOmits(parts: seq<string>, sep: string, ch: char)
    ensures ch !in Join(parts, sep) ==> forall i :: 0 <= i < |parts| ==> ch !in parts[i]
    decreases |parts|
  {
    if |parts| > 1 {
      JoinOmits(parts[1..], sep, ch);
      assert Join(parts, sep) == parts[0] + sep + Join(parts[1..], sep);
      assert forall i :: 1 <= i < |parts| ==> parts[i] == parts[1..][i - 1];
    }
  }

  /** JavaScript's `slice(0, n)` on an array: at most the first `n` elements. */
  function Take<T>(xs: seq<T>, n: nat): (r: seq<T>)
    ensures |r| == if |xs| < n then |xs| else n
    ensures forall i :: 0 <= i < |r| ==> r[i] == xs[i]
  {
    if |xs| <= n then xs else xs[..n]
  }

  predicate IsDigit(c: char) {
    '0' <= c <= '9'
  }

  function DigitChar(d: nat): (c: char)
    requires d < 10
    ensures IsDigit(c) && c as int - '0' as int == d
  {
    ('0' as int + d) as char
  }

  /** The decimal numeral of `n`, without leading zeros. */
  function NatToString(n: nat): (r: string)
    ensures |r| > 0
    ensures forall i :: 0 <= i < |r| ==> IsDigit(r[i])
    ensures n > 0 ==> r[0] != '0'
    ensures |r| == 1 || r[0] != '0'
    decreases n
  {
    if n < 10 then [DigitChar(n)] else NatToString(n / 10) + [DigitChar(n % 10)]
  }

  /** The value a string of decimal digits denotes. */
  function DecimalValue(s: string): nat
    requires forall i :: 0 <= i < |s| ==> IsDigit(s[i])
    decreases |s|
  {
    if s == [] then 0
    else
      assert IsDigit(s[|s| - 1]);
      DecimalValue(s[..|s| - 1]) * 10 + (s[|s| - 1] as int - '0' as int)
  }

  /** Reading back the numeral gives the number it was written from. */
  lemma {:induction false} NatToStringRoundTrip(n: nat)
    ensures DecimalValue(NatToString(n)) == n
    decreases n
  {
    if n >= 10 {
      var s := NatToString(n);
      assert s[..|s| - 1] == NatToString(n / 10);
      NatToStringRoundTrip(n / 10);
    }
  }

  /** The text `${n}` gives for an integer-valued number. */
  function IntToString(n: int): (r: string)
    ensures |r| > 0
    ensures n >= 0 ==> (forall i :: 0 <= i < |r| ==> IsDigit(r[i])) && DecimalValue(r) == n
    ensures n < 0 ==> r[0] == '-' && (forall i :: 1 <= i < |r| ==> IsDigit(r[i])) && DecimalValue(r[1..]) == -n
    ensures n >= 0 ==> |r| == 1 || r[0] != '0'
    ensures n < 0 ==> |r| >= 2 && r[1] != '0'
  {
    if n < 0 then
      var digits := NatToString(-n);
      NatToStringRoundTrip(-n);
      assert ("-" + digits)[1..] == digits;
      "-" + digits
    else
      NatToStringRoundTrip(n);
      NatToString(n)
  }
}

=== FILE: utils.dfy ===
/** The helpers of `lib/utils.ts`: the GitHub blob-link parser
    `parseGithubUrl`, the detector `isGithubUrl` (the same pattern searched
    for anywhere in a text), `formatError` and `getApiUrl`.

    Both link patterns read `http(s)://github.com/<owner>/<repo>/blob/<ref>/<path>`
    where the owner is `[A-Za-z0-9_-]+`, the repository and the ref are
    `[A-Za-z0-9_.-]+` and the path is any non-empty run of characters other
    than line terminators. None of the three segment classes holds `/`, so a
    left-to-right scan that stops each segment at its first non-class
    character finds the only possible split; that scan is what is modelled
    here instead of a regular-expression engine. */
module Utils {
  import opened Wrappers
  import opened Text

  /** What `parseGithubUrl` returns: `{ repo_url, file_path }`. */
  datatype GithubFile = GithubFile(repoUrl: string, filePath: string)

  /** The five parts of a blob link; `secure` says whether the scheme is `https`. */
  datatype BlobUrl = BlobUrl(secure: bool, owner: string, repo: string, ref: string, path: string)

  /** The regular-expression class `\w`. */
  predicate IsWordChar(c: char) {
    ('a' <= c <= 'z') || ('A' <= c <= 'Z') || ('0' <= c <= '9') || c == '_'
  }

  /** The character classes the link patterns repeat: `[\w-]` for the owner,
      `[\w.-]` for the repository and the ref, `.` for the path. */
  datatype CharClass = OwnerChars | NameChars | LineChars

  predicate InClass(c: char, k: CharClass) {
    match k
    case OwnerChars => IsWordChar(c) || c == '-'
    case NameChars => IsWordChar(c) || c == '-' || c == '.'
    case LineChars => IsLineChar(c)
  }

  predicate AllIn(s: string, k: CharClass) {
    forall i :: 0 <= i < |s| ==> InClass(s[i], k)
  }

  predicate IsOwner(s: string) {
    |s| > 0 && AllIn(s, OwnerChars)
  }

  predicate IsName(s: string) {
    |s| > 0 && AllIn(s, NameChars)
  }

  /** The fixed start of a link, scheme and host. */
  function SchemeHost(secure: bool): string {
    if secure then "https://github.com/" else "http://github.com/"
  }

  function RefTail(ref: string, path: string): string {
    ref + "/" + path
  }

  function RepoTail(repo: string, ref: string, path: string): string {
    repo + "/blob/" + RefTail(ref, path)
  }

  function OwnerTail(owner: string, repo: string, ref: string, path: string): string {
    owner + "/" + RepoTail(repo, ref, path)
  }

  /** The text of a blob link. */
  function Compose(b: BlobUrl): string {
    SchemeHost(b.secure) + OwnerTail(b.owner, b.repo, b.ref, b.path)
  }

  /** The link up to and including the `/` that ends the ref. */
  function Head(b: BlobUrl): string {
    Compose(b.(path := []))
  }

  lemma ComposeIsHeadThenPath(b: BlobUrl)
    ensures Compose(b) == Head(b) + b.path
  {
  }

  /** Owner, repository and ref are drawn from their classes. */
  predicate HeadOk(b: BlobUrl) {
    IsOwner(b.owner) && IsName(b.repo) && IsName(b.ref)
  }

  /** A link the anchored pattern accepts: also a non-empty single-line path. */
  predicate Valid(b: BlobUrl) {
    HeadOk(b) && |b.path| > 0 && NoLineTerminator(b.path)
  }

  /** The canonical repository address the parser builds, always over https. */
  function RepoUrl(owner: string, repo: string): string {
    "https://github.com/" + owner + "/" + repo
  }

  lemma RepoUrlOverHttps(owner: string, repo: string)
    ensures StartsWith(RepoUrl(owner, repo), "https://github.com/")
  {
    assert RepoUrl(owner, repo) == "https://github.com/" + (owner + "/" + repo);
    PrefixOfConcat("https://github.com/", owner + "/" + repo);
  }

  function FileOf(b: BlobUrl): GithubFile {
    GithubFile(RepoUrl(b.owner, b.repo), b.path)
  }

  /** Length of the longest prefix of `s` drawn from class `k`: what a greedy
      `[…]+` consumes. */
  function Span(s: string, k: CharClass): (n: nat)
    ensures n <= |s|
    ensures forall i :: 0 <= i < n ==> InClass(s[i], k)
    ensures n < |s| ==> !InClass(s[n], k)
    decreases |s|
  {
    if s == [] || !InClass(s[0], k) then 0 else 1 + Span(s[1..], k)
  }

  /** A text wholly inside the class is consumed to its end. */
  lemma SpanAll(s: string, k: CharClass)
    requires AllIn(s, k)
    ensures Span(s, k) == |s|
  {
  }

  /** A class run followed by a character outside the class is consumed exactly. */
  lemma SpanStopsAt(x: string, y: string, k: CharClass)
    requires AllIn(x, k)
    requires |y| > 0 && !InClass(y[0], k)
    ensures Span(x + y, k) == |x|
  {
    assert (x + y)[|x|] == y[0];
  }

  /** `<ref>/<path>` at the start of `s`. */
  function ScanRef(s: string): (r: Option<(string, string)>)
    ensures r.Some? ==> IsName(r.value.0) && s == RefTail(r.value.0, r.value.1)
  {
    var n := Span(s, NameChars);
    if n == 0 || n == |s| || s[n] != '/' then None
    else
      assert s == s[..n] + "/" + s[n + 1..];
      Some((s[..n], s[n + 1..]))
  }

  lemma ScanRefComplete(ref: string, path: string)
    requires IsName(ref)
    ensures ScanRef(RefTail(ref, path)) == Some((ref, path))
  {
    var s := RefTail(ref, path);
    assert s == ref + ("/" + path);
    SpanStopsAt(ref, "/" + path, NameChars);
    assert s[|ref|] == '/';
    assert s[..|ref|] == ref;
    assert s[|ref| + 1..] == path;
  }

  /** `<repo>/blob/<ref>/<path>` at the start of `s`. */
  function ScanRepo(s: string): (r: Option<(string, string, string)>)
    ensures r.Some? ==> IsName(r.value.0) && IsName(r.value.1) && s == RepoTail(r.value.0, r.value.1, r.value.2)
  {
    var n := Span(s, NameChars);
    if n == 0 || !StartsWith(s[n..], "/blob/") then None
    else
      match ScanRef(s[n + 6..])
      case None => None
      case Some(rp) =>
        assert s == s[..n] + "/blob/" + s[n + 6..];
        Some((s[..n], rp.0, rp.1))
  }

  lemma ScanRepoComplete(repo: string, ref: string, path: string)
    requires IsName(repo) && IsName(ref)
    ensures ScanRepo(RepoTail(repo, ref, path)) == Some((repo, ref, path))
  {
    var s := RepoTail(repo, ref, path);
    assert s == repo + ("/blob/" + RefTail(ref, path));
    SpanStopsAt(repo, "/blob/" + RefTail(ref, path), NameChars);
    assert s[..|repo|] == repo;
    assert s[|repo|..] == "/blob/" + RefTail(ref, path);
    assert s[|repo| + 6..] == RefTail(ref, path);
    ScanRefComplete(ref, path);
  }

  /** `<owner>/<repo>/blob/<ref>/<path>` at the start of `s`. */
  function ScanOwner(s: string): (r: Option<(string, string, string, string)>)
    ensures r.Some? ==> IsOwner(r.value.0) && IsName(r.value.1) && IsName(r.value.2)
    ensures r.Some? ==> s == OwnerTail(r.value.0, r.value.1, r.value.2, r.value.3)
  {
    var n := Span(s, OwnerChars);
    if n == 0 || n == |s| || s[n] != '/' then None
    else
      match ScanRepo(s[n + 1..])
      case None => None
      case Some(rp) =>
        assert s == s[..n] + "/" + s[n + 1..];
        Some((s[..n], rp.0, rp.1, rp.2))
  }

  lemma ScanOwnerComplete(owner: string, repo: string, ref: string, path: string)
    requires IsOwner(owner) && IsName(repo) && IsName(ref)
    ensures ScanOwner(OwnerTail(owner, repo, ref, path)) == Some((owner, repo, ref, path))
  {
    var s := OwnerTail(owner, repo, ref, path);
    var t := RepoTail(repo, ref, path);
    assert s == owner + ("/" + t);
    SpanStopsAt(owner, "/" + t, OwnerChars);
    var n := Span(s, OwnerChars);
    assert n == |owner| && s[n] == '/';
    assert s[..n] == owner;
    assert s[n + 1..] == t;
    ScanRepoComplete(repo, ref, path);
    assert ScanRepo(s[n + 1..]) == Some((repo, ref, path));
  }

  /** Matches the pattern, up to the `/` after the ref, at the start of `t`;
      the rest of `t` becomes the path. */
  function ScanHead(t: string): (r: Option<BlobUrl>)
    ensures r.Some? ==> HeadOk(r.value) && Compose(r.value) == t
  {
    var secure := StartsWith(t, SchemeHost(true));
    if !secure && !StartsWith(t, SchemeHost(false)) then None
    else
      var rest := t[|SchemeHost(secure)|..];
      match ScanOwner(rest)
      case None => None
      case Some(p) =>
        StartsWithSplit(t, SchemeHost(secure));
        Some(BlobUrl(secure, p.0, p.1, p.2, p.3))
  }

  /** Every link with a well-formed head is scanned back into its own parts. */
  lemma ScanHeadComplete(b: BlobUrl)
    requires HeadOk(b)
    ensures ScanHead(Compose(b)) == Some(b)
  {
    var t := Compose(b);
    var rest := OwnerTail(b.owner, b.repo, b.ref, b.path);
    if b.secure {
      assert StartsWith(t, SchemeHost(true));
    } else {
      assert t[4] == ':';
      assert !StartsWith(t, SchemeHost(true));
      assert StartsWith(t, SchemeHost(false));
    }
    assert t[|SchemeHost(b.secure)|..] == rest;
    ScanOwnerComplete(b.owner, b.repo, b.ref, b.path);
  }

  /** The anchored pattern of `parseGithubUrl` as a scanner: the parts of the
      link, or `None` when the whole text is not one blob link. */
  function SplitBlobUrl(url: string): (r: Option<BlobUrl>)
    ensures r.Some? ==> Valid(r.value) && Compose(r.value) == url
  {
    match ScanHead(url)
    case Some(b) => if |b.path| > 0 && NoLineTerminator(b.path) then Some(b) else None
    case None => None
  }

  /** Splitting a composed link gives back exactly its parts. */
  lemma SplitBlobUrlComplete(b: BlobUrl)
    requires Valid(b)
    ensures SplitBlobUrl(Compose(b)) == Some(b)
  {
    ScanHeadComplete(b);
  }

  /** `parseGithubUrl`: a blob link becomes `{ repo_url, file_path }`, with the
      repository address rebuilt over https and the ref dropped; any other
      text gives `null`. */
  function ParseGithubUrl(url: string): (r: Option<GithubFile>)
    ensures r.Some? ==> exists b :: Valid(b) && Compose(b) == url && r.value == FileOf(b)
    ensures r.Some? ==> StartsWith(r.value.repoUrl, "https://github.com/")
    ensures r.Some? ==> |r.value.filePath| > 0 && NoLineTerminator(r.value.filePath)
  {
    match SplitBlobUrl(url)
    case Some(b) =>
      RepoUrlOverHttps(b.owner, b.repo);
      Some(FileOf(b))
    case None => None
  }

  /** Round trip: composing a link and parsing it yields the https repository
      address of its owner and repository, and its path unchanged. */
  lemma ParseGithubUrlRoundTrip(b: BlobUrl)
    requires Valid(b)
    ensures ParseGithubUrl(Compose(b)) == Some(GithubFile("https://github.com/" + b.owner + "/" + b.repo, b.path))
  {
    SplitBlobUrlComplete(b);
  }

  /** The scheme and the ref of a link never influence the parse. */
  lemma ParseIgnoresSchemeAndRef(b: BlobUrl, secure: bool, ref: string)
    requires Valid(b) && IsName(ref)
    ensures ParseGithubUrl(Compose(b.(secure := secure, ref := ref))) == ParseGithubUrl(Compose(b))
  {
    SplitBlobUrlComplete(b);
    SplitBlobUrlComplete(b.(secure := secure, ref := ref));
  }

  /** Parsed links start with `http://github.com/` or `https://github.com/`:
      the pattern is anchored at the start, so any other host, or any text
      in front of the scheme that does not itself begin a link, is refused. */
  lemma ParsedLinkStartsWithHost(url: string)
    ensures ParseGithubUrl(url).Some? ==> StartsWith(url, "http://github.com/") || StartsWith(url, "https://github.com/")
  {
    match SplitBlobUrl(url)
    case None =>
    case Some(b) =>
      assert url == SchemeHost(b.secure) + OwnerTail(b.owner, b.repo, b.ref, b.path);
      assert url[..|SchemeHost(b.secure)|] == SchemeHost(b.secure);
  }

  /** A link whose owner contains a dot is refused, even when every other part
      is well formed. */
  lemma ParseRejectsDottedOwner(b: BlobUrl, i: int)
    requires IsName(b.owner) && IsName(b.repo) && IsName(b.ref)
    requires 0 <= i < |b.owner| && b.owner[i] == '.'
    ensures ParseGithubUrl(Compose(b)) == None
  {
    var t := Compose(b);
    var rest := OwnerTail(b.owner, b.repo, b.ref, b.path);
    if !b.secure {
      assert t[4] == ':';
      assert !StartsWith(t, SchemeHost(true));
    }
    assert t[|SchemeHost(b.secure)|..] == rest;
    var n := Span(rest, OwnerChars);
    assert rest[i] == '.';
    assert n <= i;
    assert rest[n] == b.owner[n];
    assert ScanOwner(rest) == None;
  }

  lemma ComposeHasBlobSegment(b: BlobUrl)
    ensures OccursAt(Compose(b), "/blob/", |SchemeHost(b.secure)| + |b.owner| + 1 + |b.repo|)
  {
    var k := |SchemeHost(b.secure)| + |b.owner| + 1;
    var r := RepoTail(b.repo, b.ref, b.path);
    assert Compose(b) == (SchemeHost(b.secure) + b.owner + "/") + r;
    assert Compose(b)[k..] == r;
    assert r[|b.repo|..|b.repo| + 6] == "/blob/";
  }

  /** A parsed link has its `/blob/` segment right after the repository segment. */
  lemma ParsedLinkHasBlobSegment(url: string)
    ensures ParseGithubUrl(url).Some? ==>
      exists b :: Valid(b) && Compose(b) == url &&
        OccursAt(url, "/blob/", |SchemeHost(b.secure)| + |b.owner| + 1 + |b.repo|)
  {
    if ParseGithubUrl(url).Some? {
      var b :| Valid(b) && Compose(b) == url && ParseGithubUrl(url).value == FileOf(b);
      ComposeHasBlobSegment(b);
    }
  }

  /** A link that stops right after the ref's `/` (an empty path) is refused. */
  lemma ParseRejectsEmptyPath(b: BlobUrl)
    requires HeadOk(b)
    ensures ParseGithubUrl(Head(b)) == None
  {
    ScanHeadComplete(b.(path := []));
  }

  /** The pattern is anchored at the end and its path cannot cross a line:
      text after the path that holds a line terminator makes the parse fail. */
  lemma ParseRejectsTrailingLine(b: BlobUrl, tail: string)
    requires Valid(b)
    requires !NoLineTerminator(tail)
    ensures ParseGithubUrl(Compose(b) + tail) == None
  {
    var e := b.(path := b.path + tail);
    ComposeExtends(b, tail);
    var j :| 0 <= j < |tail| && IsLineTerminator(tail[j]);
    assert e.path[|b.path| + j] == tail[j];
    ParseRejectsBadPath(e);
  }

  /** A link whose path crosses a line is refused. */
  lemma ParseRejectsBadPath(b: BlobUrl)
    requires HeadOk(b) && !NoLineTerminator(b.path)
    ensures ParseGithubUrl(Compose(b)) == None
  {
    ScanHeadComplete(b);
  }

  /** `isGithubUrl`'s unanchored pattern matches at index `i` of `text`: a
      link head followed by at least one character of the same line. */
  predicate MatchAt(text: string, i: nat)
    requires i <= |text|
  {
    match ScanHead(text[i..])
    case Some(b) => |b.path| > 0 && !IsLineTerminator(b.path[0])
    case None => false
  }

  /** Every match starts with the `h` of `http`. */
  lemma MatchStartsWithH(text: string, i: nat)
    requires i <= |text|
    ensures MatchAt(text, i) ==> i < |text| && text[i] == 'h'
  {
    if MatchAt(text, i) {
      var secure := StartsWith(text[i..], SchemeHost(true));
      assert text[i..][0] == text[i];
      assert text[i..][..|SchemeHost(secure)|][0] == 'h';
    }
  }

  /** No match starts in a prefix of `text` that holds no `h`. */
  lemma NoMatchBeforeH(text: string, n: nat)
    requires n <= |text|
    requires forall j :: 0 <= j < n ==> text[j] != 'h'
    ensures forall j :: 0 <= j < n ==> !MatchAt(text, j)
  {
    forall j | 0 <= j < n ensures !MatchAt(text, j) {
      MatchStartsWithH(text, j);
    }
  }

  /** The leftmost index at or after `from` where the pattern matches. */
  function FindMatch(text: string, from: nat): (r: Option<nat>)
    requires from <= |text|
    ensures r.Some? ==> from <= r.value <= |text| && MatchAt(text, r.value)
    ensures r.Some? ==> forall j :: from <= j < r.value ==> !MatchAt(text, j)
    ensures r.None? ==> forall j :: from <= j <= |text| ==> !MatchAt(text, j)
    decreases |text| - from
  {
    if MatchAt(text, from) then Some(from)
    else if from == |text| then None
    else FindMatch(text, from + 1)
  }

  /** `isGithubUrl`: the pattern matches somewhere in the text. */
  predicate IsGithubUrl(text: string)
    ensures IsGithubUrl(text) <==> exists i :: 0 <= i <= |text| && MatchAt(text, i)
  {
    FindMatch(text, 0).Some?
  }

  /** Extending the path extends the link text by the same characters. */
  lemma ComposeExtends(b: BlobUrl, more: string)
    ensures Compose(b.(path := b.path + more)) == Compose(b) + more
  {
    ComposeIsHeadThenPath(b);
    ComposeIsHeadThenPath(b.(path := b.path + more));
  }

  /** Cutting the link text after the head and `n` path characters is the
      link whose path is cut to `n` characters. */
  lemma ComposeCut(b: BlobUrl, n: nat)
    requires n <= |b.path|
    ensures Compose(b)[..|Head(b)| + n] == Compose(b.(path := b.path[..n]))
  {
    ComposeIsHeadThenPath(b);
    ComposeIsHeadThenPath(b.(path := b.path[..n]));
  }

  /** A well-formed link matches the unanchored pattern where it starts,
      whatever surrounds it. */
  lemma MatchAtLink(before: string, b: BlobUrl, after: string)
    requires Valid(b)
    ensures MatchAt(before + Compose(b) + after, |before|)
    ensures ScanHead((before + Compose(b) + after)[|before|..]) == Some(b.(path := b.path + after))
  {
    var e := b.(path := b.path + after);
    ComposeExtends(b, after);
    assert (before + Compose(b) + after)[|before|..] == Compose(e);
    ScanHeadComplete(e);
    assert e.path[0] == b.path[0];
  }

  /** The text of `isGithubUrl` is found wherever a parsable link sits inside
      it, whatever text surrounds the link. */
  lemma IsGithubUrlInContext(before: string, url: string, after: string)
    requires ParseGithubUrl(url).Some?
    ensures IsGithubUrl(before + url + after)
  {
    var b := SplitBlobUrl(url).value;
    MatchAtLink(before, b, after);
  }

  /** The match of the unanchored pattern starting at index `i`: its greedy
      path runs to the end of the line. Whenever it exists it is a link the
      anchored parser accepts. */
  function LinkAt(text: string, i: nat): (r: Option<string>)
    requires i <= |text|
    ensures r.Some? <==> MatchAt(text, i)
    ensures r.Some? ==> StartsWith(text[i..], r.value) && ParseGithubUrl(r.value).Some?
  {
    match ScanHead(text[i..])
    case None => None
    case Some(b) =>
      if |b.path| == 0 || IsLineTerminator(b.path[0]) then None
      else
        LineCutParses(b);
        Some(Compose(LineCut(b)))
  }

  /** The link cut after the first line of its path. */
  function LineCut(b: BlobUrl): BlobUrl {
    b.(path := b.path[..Span(b.path, LineChars)])
  }

  lemma LineCutParses(b: BlobUrl)
    requires HeadOk(b) && |b.path| > 0 && !IsLineTerminator(b.path[0])
    ensures StartsWith(Compose(b), Compose(LineCut(b)))
    ensures ParseGithubUrl(Compose(LineCut(b))) == Some(FileOf(LineCut(b)))
  {
    var n := Span(b.path, LineChars);
    ComposeCut(b, n);
    ComposeIsHeadThenPath(b);
    assert Valid(LineCut(b));
    SplitBlobUrlComplete(LineCut(b));
  }

  /** `text.match(pattern)?.[0]` in the chat handler: the leftmost match.
      It exists exactly when `isGithubUrl` holds and it always parses, so the
      handler's two "could not extract" and "invalid format" replies for a
      detected link can never be sent. */
  function FirstMatch(text: string): (r: Option<string>)
    ensures r.Some? <==> IsGithubUrl(text)
    ensures r.Some? ==> ParseGithubUrl(r.value).Some?
  {
    match FindMatch(text, 0)
    case None => None
    case Some(i) => LinkAt(text, i)
  }

  /** The link `b` followed by what `after` holds up to its first line terminator. */
  function RestOfLine(b: BlobUrl, after: string): BlobUrl {
    b.(path := b.path + after[..Span(after, LineChars)])
  }

  /** Cutting the link extended by `after` at its first line end keeps
      exactly the first line of `after`. */
  lemma RestOfLineIsLineCut(b: BlobUrl, after: string)
    requires NoLineTerminator(b.path)
    ensures LineCut(b.(path := b.path + after)) == RestOfLine(b, after)
    ensures Compose(RestOfLine(b, after)) == Compose(b) + after[..Span(after, LineChars)]
  {
    var e := b.(path := b.path + after);
    var n := Span(after, LineChars);
    SpanStopsAtLine(b.path, after);
    assert Span(e.path, LineChars) == |b.path| + n;
    var cut := e.path[..|b.path| + n];
    assert cut == b.path + after[..n];
    assert LineCut(e) == b.(path := cut);
    ComposeExtends(b, after[..n]);
  }

  /** The match starting where a link starts takes the rest of that line. */
  lemma LinkAtTakesRestOfLine(before: string, b: BlobUrl, after: string)
    requires Valid(b)
    ensures LinkAt(before + Compose(b) + after, |before|) == Some(Compose(RestOfLine(b, after)))
    ensures ParseGithubUrl(Compose(RestOfLine(b, after))) == Some(FileOf(RestOfLine(b, after)))
  {
    var e := b.(path := b.path + after);
    MatchAtLink(before, b, after);
    RestOfLineIsLineCut(b, after);
    LineCutParses(e);
  }

  /** With no match starting before the link, the extracted link is the link
      followed by the rest of its line, so trailing prose on that line ends
      up in the file path. */
  lemma FirstMatchTakesRestOfLine(before: string, b: BlobUrl, after: string)
    requires Valid(b)
    requires forall j :: 0 <= j < |before| ==> !MatchAt(before + Compose(b) + after, j)
    ensures FirstMatch(before + Compose(b) + after) == Some(Compose(b) + after[..Span(after, LineChars)])
    ensures ParseGithubUrl(Compose(b) + after[..Span(after, LineChars)])
         == Some(GithubFile(RepoUrl(b.owner, b.repo), b.path + after[..Span(after, LineChars)]))
  {
    MatchAtLink(before, b, after);
    LeftmostMatch(before + Compose(b) + after, |before|);
    LinkAtTakesRestOfLine(before, b, after);
    RestOfLineIsLineCut(b, after);
  }

  /** The search finds a match at `k` when nothing matches before it. */
  lemma LeftmostMatch(text: string, k: nat)
    requires k <= |text| && MatchAt(text, k)
    requires forall j :: 0 <= j < k ==> !MatchAt(text, j)
    ensures FindMatch(text, 0) == Some(k)
  {
  }

  lemma {:induction false} SpanStopsAtLine(line: string, rest: string)
    requires NoLineTerminator(line)
    ensures Span(line + rest, LineChars) == |line| + Span(rest, LineChars)
    decreases |line|
  {
    if line == [] {
      assert line + rest == rest;
    } else {
      assert (line + rest)[1..] == line[1..] + rest;
      SpanStopsAtLine(line[1..], rest);
    }
  }

  /** A value caught by a `catch` clause: an `Error` object, a thrown string,
      or anything else. */
  datatype Thrown = ErrorObject(message: string) | StringValue(text: string) | OtherValue

  const UnexpectedError: string := "An unexpected error occurred"

  /** `formatError`: total; an `Error` gives its message, a string itself,
      anything else a fixed sentence. */
  function FormatError(error: Thrown): (r: string)
    ensures error.ErrorObject? ==> r == error.message
    ensures error.StringValue? ==> r == error.text
    ensures error.OtherValue? ==> r == UnexpectedError
  {
    match error
    case ErrorObject(m) => m
    case StringValue(s) => s
    case OtherValue => UnexpectedError
  }

  const DefaultApiUrl: string := "http://localhost:5001"

  /** `getApiUrl`, with the `NEXT_PUBLIC_API_URL` environment value passed in:
      the configured value unless it is missing or empty. */
  function GetApiUrl(configured: Option<string>): (r: string)
    ensures r != []
    ensures configured.Some? && configured.value != [] ==> r == configured.value
    ensures configured.None? || configured.value == [] ==> r == DefaultApiUrl
  {
    match configured
    case Some(v) => if v != [] then v else DefaultApiUrl
    case None => DefaultApiUrl
  }
}

=== FILE: wrappers.dfy ===
/** The optional value used wherever the source returns `null` or leaves a
    field unset. */
module Wrappers {

  datatype Option<+T> = None | Some(value: T)
}
